=== FILE: README.md ===
# punchscrapper in Dafny

A model of the ingestion pipeline of punchscrapper, a scraper that reads the
category listings of a news site, extracts every linked article, and files
the articles in a document store, together with the store's read handlers.
Browser, DOM, database and timers are replaced by the values they would
produce:

- a listing is the list of `href` attributes inside `#category-page`;
- an article page is its `.single-article` element, reduced to the texts the
  extractor reads;
- each link has an outcome: the page could not be opened, navigation failed,
  extraction threw, or the page loaded;
- the store is an append-only sequence of records;
- store failures are given as the positions where a lookup or save fails.

Modules:

| module | file | models |
|---|---|---|
| `Wrappers` | wrappers.dfy | `Option` |
| `Text` | text.dfy | `String.prototype.trim` with the ECMAScript white-space set, `Array.prototype.join`. `Text.Trim` drops the leading white-space run, then the trailing one |
| `Dedup` | dedup.dfy | first-seen de-duplication (the `Set`-guarded push of the source) as a reference function |
| `ResourceFilter` | resource_filter.dfy | `interceptRequest` |
| `LinkExtractor` | link_extractor.dfy | `scraperAllPostFunction`. `LinkExtractor.Resolve` keeps an href that starts with "http" and otherwise prefixes it with the site URL |
| `ArticleExtractor` | article_extractor.dfy | `scrapNewsMainContent` |
| `Months` | months.dfy | `MonthReplacer` |
| `Punch` | punch.dfy | `pageScrapper`. `Punch.Keep` is the test `mainContent?.title && mainContent?.content`: an article with a non-empty title and non-empty content |
| `NewsPost` | news_post.dfy | the `News` model: `saveNews`, `findNewsByTitle` and the four read handlers |
| `Ingest` | ingest.dfy | `fetchAndInsertPosts`, `fetchAndInsertAllPosts` and the category table |

Behaviour of the code worth noting:

- Links are resolved by plain concatenation with the site URL. This is not
  URL resolution.
- A rejected `browser.newPage()` is outside the per-link `try`. It therefore
  ends the whole category: the result is `[]`, and the pages already visited
  stay closed. Only navigation and extraction failures are isolated per link.
- Request interception on the listing page is set up before the `try`. If it
  rejects, `pageScrapper` rejects and its `finally` never closes the browser
  (`InterceptFailed`).
- `browser.close()` is awaited in the outer `finally`. If it rejects, that
  rejection replaces the result of the `try`, and `fetchAndInsertPosts` files
  nothing for the category (`BrowserCloseFailed`).
- The date normaliser's result is never used, and the "today" filter is
  commented out. The stored date is the raw extracted string.
- Mongoose's `required` rejects the empty string. A post with an empty title or
  date, or an empty category id, is therefore not saved. The failure is
  swallowed like any other save error.

## Model

| member | source | states |
|---|---|---|
| ResourceFilter.Intercept | Utils/Helper.js:56-69 | a request is aborted exactly when its URL starts with "data:" or its type is stylesheet, font, script or image; otherwise it continues |
| ResourceFilter.Sent | Utils/Helper.js:56-69 | the requests that go out are exactly the continued ones: none is a data: URL or a blocked kind, and every continued request is among them |
| ResourceFilter.DocumentAlwaysSent | Utils/Helper.js:60-67 | a document request whose URL is not a data: URL always goes out, so the page's HTML still loads |
| LinkExtractor.Candidates | Utils/Helper.js:82-85 | every anchor with a non-empty href has its resolved link among the candidates, and there are no more candidates than anchors |
| LinkExtractor.CandidateOrigin | Utils/Helper.js:83-85 | every candidate is the resolution of some anchor that has a non-empty href |
| LinkExtractor.UniqueLinksSpec | Utils/Helper.js:75-92 | no container gives no links; otherwise no link twice, the link of every anchor with an href present, nothing else present, in first-seen order |
| LinkExtractor.ScraperAllPost | Utils/Helper.js:73-98 | the single pass with a seen-set yields exactly the first-seen de-duplication of the resolved candidates |
| LinkExtractor.LinksNonEmpty | Utils/Helper.js:83-85 | no extracted link is empty |
| LinkExtractor.ResolveIdempotent | Utils/Helper.js:85 | with an http site URL, resolving an already resolved link leaves it unchanged |
| Dedup.Distinct | Utils/Helper.js:79-92 | the de-duplicated list has no repeats, holds every input element and only input elements, and is no longer than the input |
| Dedup.DistinctFirstSeenOrder | Utils/Helper.js:79-92 | elements keep the order of their first occurrence in the input |
| Dedup.DistinctSnoc | Utils/Helper.js:88-91 | one more element is appended exactly when it has not been seen before |
| Dedup.DistinctIdempotent | Utils/Helper.js:79-92 | de-duplicating twice is de-duplicating once |
| Text.TrimIsSlice | Utils/Helper.js:105-106 | trim cuts only at the ends: the result is the slice that starts after the leading white-space run |
| Text.TrimCutsSpace | Utils/Helper.js:105-106 | what trim cuts off before and after that slice is all white space |
| Text.TrimIsTrimmed | Utils/Helper.js:115 | a trimmed string neither starts nor ends with white space |
| Text.TrimIdempotent | Utils/Helper.js:115 | trimming twice is trimming once |
| Text.Join | Utils/Helper.js:122 | joining nothing gives "", the first part is a prefix of the result, and the length is the parts' total plus one separator between each pair |
| Text.JoinEmptyIff | Utils/Helper.js:122 | the joined content is empty exactly when there are no parts, or one empty part |
| ArticleExtractor.Trimmed | Utils/Helper.js:114-115 | each paragraph is replaced by its trimmed text, position for position |
| ArticleExtractor.Substantial | Utils/Helper.js:117 | every kept text has at least 30 characters, and every text of at least 30 characters is kept |
| ArticleExtractor.FilterParagraphs | Utils/Helper.js:113-120 | the map-then-filter with a seen-set keeps exactly the de-duplicated long trimmed paragraphs |
| ArticleExtractor.KeptParagraphsSound | Utils/Helper.js:114-120 | kept paragraphs are trimmed, at least 30 characters long, distinct, and each is the trimmed text of some paragraph |
| ArticleExtractor.KeptParagraphsComplete | Utils/Helper.js:116-119 | a paragraph is dropped only when its trimmed text is short; a long one is always present |
| ArticleExtractor.KeptParagraphsInOrder | Utils/Helper.js:114-120 | kept paragraphs appear in the document order of their first occurrence |
| ArticleExtractor.ExtractArticle | Utils/Helper.js:100-126 | no article root gives null; otherwise the title and date are the trimmed texts of their elements, the image is the src, each "" when missing; the content is the kept paragraphs joined with one space, or "" without a content container |
| ArticleExtractor.ExtractedFieldsTrimmed | Utils/Helper.js:105-106 | the extracted title and date carry no surrounding white space |
| ArticleExtractor.ContentEmptyIff | Utils/Helper.js:109-123 | the content is "" exactly when there is no content container or no paragraph survives the filter; otherwise it starts with the first survivor and its length is the survivors' total plus one space between each pair |
| Months.MonthNumber | Utils/Helper.js:129-137 | the lookup as intended: a name gives "" exactly when it is not one of the twelve month names |
| Months.MonthNumberCalendarOrder | Utils/Helper.js:130-135 | the i-th month is numbered i+1 in two decimal digits: "01" to "12" in calendar order |
| Months.MonthNumberInjective | Utils/Helper.js:130-135 | distinct months get distinct numbers |
| Months.MonthReplacerAsWritten | Utils/Helper.js:136 | the property read as written: for a name inherited from Object.prototype the result is an object, not a string |
| Months.InheritedNameIsNotEmpty | Utils/Helper.js:136 | "toString" is no month name, yet the lookup does not return "" |
| Punch.PageScrapper | Controllers/Punch.js:8-58 | a failed launch rejects; failed request interception on the listing page rejects without closing the browser; a failed browser close rejects; only otherwise does it resolve; a failed listing gives [] with only the browser closed; otherwise the loop's posts, or [] when an exception escaped the loop; the browser is closed once, as the last event, in every resolved run |
| Punch.VisitLink | Controllers/Punch.js:25-47 | for one non-empty link: a rejected newPage throws; otherwise the link's kept article is added, and the page is opened, closed and followed by one delay |
| Punch.VisitLinks | Controllers/Punch.js:22-48 | the loop as written computes the reference fold over the links and never closes the browser |
| Punch.KeptAll | Controllers/Punch.js:35-37 | every kept post has a non-empty title and a non-empty body |
| Punch.WalkAbortsIff | Controllers/Punch.js:24-25 | the loop is left by an exception exactly when some visited link's page cannot be opened |
| Punch.WalkPostsMatch | Controllers/Punch.js:20-50 | without an escaping exception the result is each link's kept article, in listing order |
| Punch.KeptAllAppend | Controllers/Punch.js:22-48 | the result over two listings in a row is the two results in a row |
| Punch.FailureIsolated | Controllers/Punch.js:28-41 | a failed navigation or extraction contributes nothing, and later links are processed as if it were absent |
| Punch.FailureDoesNotAbort | Controllers/Punch.js:28-41 | such a failure neither causes nor hides the loop-ending exception |
| Punch.KeptAllProvenance | Controllers/Punch.js:29-37 | every kept post is what extraction returned for some non-empty, loaded link of the listing |
| Punch.WalkBracketed | Controllers/Punch.js:25-46 | per visited link the events are open, close, delay, and nothing else |
| Punch.BracketedCounts | Controllers/Punch.js:42-46 | each page is closed as often as it is opened, there is one delay per visited page, and the browser is not closed by the loop |
| Punch.WalkVisitsAll | Controllers/Punch.js:24-47 | without an escaping exception every non-empty link is visited once, with exactly one delay |
| Punch.OpenedFromListing | Controllers/Punch.js:24-25 | pages are opened only for non-empty links of the listing |
| Punch.OpenedAtMostOnce | Controllers/Punch.js:22-25 | over a duplicate-free listing no page is opened twice |
| Punch.CategoryCleanup | Controllers/Punch.js:42-55 | over a category run every opened page is closed exactly once, there is one delay per visit, and the browser is closed once |
| NewsPost.SaveNews | Models/NewsPost.js:29-35 | a save succeeds exactly when it does not fail and passes validation; it then appends one record with the post's fields, the given category id and the category name (default ""); a failure leaves the store unchanged |
| NewsPost.FindNewsByTitle | Models/NewsPost.js:37-39 | a record is returned exactly when some stored record has that title, and it is such a record |
| NewsPost.Filter | Models/NewsPost.js:75 | the filtered records are exactly the ones that pass, and their number is the count of passing records |
| NewsPost.FilterKeepsIdOrder | Models/NewsPost.js:75 | filtering records that are in decreasing id order leaves them in decreasing id order |
| NewsPost.NewestFirstDescending | Models/NewsPost.js:42 | with ids as creation positions, newest-first order is strictly decreasing id order |
| NewsPost.NewestFirstPermutes | Models/NewsPost.js:42 | newest-first ordering holds exactly the stored records |
| NewsPost.GetAllPost | Models/NewsPost.js:40-56 | 500 on a failed query, 404 on an empty store, else 200 with postLength the number of records and every record, newest first |
| NewsPost.GetNewsById | Models/NewsPost.js:59-70 | 500 on a failed query or uncastable id; 404 exactly when no record has the id; 200 exactly when the query succeeds, the id casts and some record has it, with that record |
| NewsPost.GetNewsByCategoryName | Models/NewsPost.js:72-83 | 500 on a failed query; 404 exactly when no record has the name; 200 exactly when the query succeeds and some record has the name, with exactly the records of that name, newest first |
| NewsPost.SearchNews | Models/NewsPost.js:85-127 | 400 exactly when q is missing or empty; 500 on a bad pattern or failed query; 404 exactly when nothing matches; 200 exactly when the pattern is valid, the query succeeds and something matches, with min(5, number of matches) matches and that count, newest first, every match left out older than every match returned |
| NewsPost.NewestMatches | Models/NewsPost.js:100-105 | the result is the first min(5, number of matches) matching records in newest-first order, each a stored match, and it is empty exactly when no record matches |
| NewsPost.NewestMatchesAreNewest | Models/NewsPost.js:100-105 | over a store whose ids are creation positions, the answer is in newest-first order and every match it leaves out is older than each one it holds |
| NewsPost.NewestFirstMatchCount | Models/NewsPost.js:100-105 | sorting by recency keeps the number of matching records |
| Ingest.InsertAll | index.js:44-73 | the fold only appends, every appended record carries the category and a body, and ids stay the records' positions |
| Ingest.StopsOnlyOnLookup | index.js:55-80 | the batch ends early exactly when some post with a body has a throwing title lookup; a stored title or a failed save never ends it |
| Ingest.TitlesStayUnique | index.js:61-70 | if no two stored records share a title, none do after the batch |
| Ingest.FetchAndInsertPosts | index.js:32-81 | a rejected scrape or an empty batch leaves the store unchanged; otherwise the store is the batch folded in post by post, which only appends records under the category and keeps ids the records' positions |
| Ingest.NullBodySkipped | index.js:55-58 | a post without a body changes nothing and is skipped before its lookup, so a lookup fault at its position does not end the batch |
| Ingest.InsertedFromBatch | index.js:55-70 | every appended record is a batch post with a body that passed validation, stored with its raw date, and its title was not yet stored |
| Ingest.StoppedSticky | index.js:34-80 | once an exception has left the loop, later posts change nothing |
| Ingest.LookupFailureStops | index.js:61-80 | a throwing title lookup ends the batch: the store is as the earlier posts left it |
| Ingest.BatchComplete | index.js:44-73 | without a throwing lookup, every post with a body (even an empty one) that passes validation and saves has its title in the store |
| Ingest.DateIrrelevant | index.js:45-70 | batches that differ only in their (non-empty) dates give stores that differ only in dates |
| Ingest.IngestSeqCategories | index.js:94-96 | records appended by a sequence of categories carry one of those categories' id and name |
| Ingest.FetchAndInsertAllPosts | index.js:83-97 | a pass only appends, every appended record carries the id and name of one of the seven categories, and ids stay the records' positions |
| Ingest.IngestSeqSplit | index.js:94-96 | the categories are handled one after another: a pass is a prefix's pass followed by the rest |
| Ingest.CategoryFailureContained | index.js:78-80 | a category whose scrape rejects changes nothing, and the categories after it still run |
| Ingest.IngestSeqGrouped | index.js:94-96 | once a record of a later category is filed, no record of an earlier category follows |
| Ingest.CategoryOrder | index.js:84-96 | the pass files records category by category in the declared order |
| Ingest.SourcesDistinct | index.js:84-92 | the seven categories have distinct paths, ids and names |

## Left out

- Puppeteer and the DOM: launching, `newPage`, `goto`, `page.evaluate` and the
  selectors are replaced by their results (a launch flag, an interception flag, a listing outcome,
  one outcome per link, the texts of an article). These are calls into code
  that is not part of this model.
- The launch failure is modelled only as a rejected `pageScrapper`.
  `LaunchBrowser` returns undefined, and the destructuring throws before the
  `try`.
- Punch.PageScrapper: a rejected `postPage.close()` is not modelled. Every
  opened page closes. In the code such a rejection escapes the inner `finally`,
  skips that page's delay, and ends the category with `[]` through the outer
  `catch`. A page-close failure is a browser fault that the link outcomes do not
  carry, and modelling it would give up the open/close pairing that every
  other run keeps.
- A rejected `interceptRequest` on an article page is treated like a rejected
  `newPage`: it ends the category. Nothing records that the page it opened is
  never closed.
- The `timeout` option (60 s) is only the constant `Punch.NavigationTimeoutMs`. A timeout is one of the ways
  navigation fails.
- The 1.5 s wait is recorded as a `Delayed(1500)` event. No time passes.
- `moment` date parsing: the library is not part of this model, and its result
  is unused.
- Regular-expression matching in `searchNews` and the `createdAt` sort are
  storage-engine behaviour. The match is a given predicate. The order is
  reverse insertion, with no ties.
- A record's id stands for its ObjectId: it is its position in the store. The
  ObjectId cast failure of `getNewsById` is a given `MalformedId`.
- Timers and concurrency: the hourly `setInterval`, `Promise.all` and the
  keep-alive pinger.
- Express routing, CORS, the server listen call, dotenv configuration, the
  mongoose connection and console logging.
- String lengths count characters, not UTF-16 code units. Characters outside
  the Basic Multilingual Plane therefore count once instead of twice in the
  30-character test.
- An undefined `SITE_URL` would be concatenated as the text "undefined". The
  model takes the site URL as a given string.

## Findings

| source | as written | input that shows it | evidently intended | confidence | as-written member | corrected member |
|---|---|---|---|---|---|---|
| Utils/Helper.js:136 | `months[monthName] \|\| ""` reads a property of an object literal, which also finds members inherited from `Object.prototype` | `MonthReplacer("toString")` returns the `toString` function instead of "" (likewise "constructor", "valueOf", "__proto__") | every name other than the twelve months maps to "" | not executed | Months.MonthReplacerAsWritten, Months.InheritedNameIsNotEmpty | Months.MonthNumber |

=== FILE: article_extractor.dfy ===
/**
 * `scrapNewsMainContent`: the fields of one article page. Missing elements
 * give empty strings; the body is the trimmed paragraphs of `.post-content`
 * that are at least 30 characters long, each distinct text once, in document
 * order, joined with a single space.
 */
module ArticleExtractor {
  import opened Wrappers
  import opened Text
  import opened Dedup

  /** The `.single-article` element as the extractor sees it: the `innerText`
      of `.post-title` and `.post-date`, the `src` of the image (`None` when the
      image or its attribute is missing), and the `innerText` of each `p`
      inside `.post-content` (`None` when that container is missing). */
  datatype ArticleRoot = ArticleRoot(
    titleText: Option<string>,
    dateText: Option<string>,
    imageSrc: Option<string>,
    paragraphs: Option<seq<string>>)

  /** An extracted post. `content` is `None` only for posts that did not come
      from the extractor (JavaScript `null`/`undefined`). */
  datatype Article = Article(title: string, date: string, image: string, content: Option<string>)

  /** Paragraphs shorter than this are boilerplate. */
  const MinParagraphLength: nat := 30

  function Trimmed(texts: seq<string>): (r: seq<string>)
    ensures |r| == |texts|
    ensures forall i :: 0 <= i < |texts| ==> r[i] == Trim(texts[i])
  {
    if |texts| == 0 then []
    else
      var n := |texts| - 1;
      assert forall i :: 0 <= i < n ==> texts[..n][i] == texts[i];
      Trimmed(texts[..n]) + [Trim(texts[n])]
  }

  /** The texts of at least `MinParagraphLength` characters, in order. */
  function Substantial(texts: seq<string>): (r: seq<string>)
    ensures forall k :: 0 <= k < |r| ==> |r[k]| >= MinParagraphLength
    ensures forall i :: 0 <= i < |texts| && |texts[i]| >= MinParagraphLength ==> texts[i] in r
  {
    if |texts| == 0 then []
    else
      var n := |texts| - 1;
      var rest := Substantial(texts[..n]);
      assert forall i :: 0 <= i < n ==> texts[..n][i] == texts[i];
      if |texts[n]| >= MinParagraphLength then rest + [texts[n]] else rest
  }

  /** Filtering adds nothing: every survivor is one of the texts. */
  lemma {:induction false} SubstantialFromInput(texts: seq<string>, k: nat)
    requires k < |Substantial(texts)|
    ensures Substantial(texts)[k] in texts
  {
    var n := |texts| - 1;
    if k < |Substantial(texts[..n])| {
      SubstantialFromInput(texts[..n], k);
      assert texts[..n] <= texts;
    }
  }

  /** The reference body: substantial trimmed paragraphs, each distinct text once. */
  function KeptParagraphs(texts: seq<string>): seq<string> {
    Distinct(Substantial(Trimmed(texts)))
  }

  lemma TrimmedSnoc(texts: seq<string>, i: nat)
    requires i < |texts|
    ensures Trimmed(texts[..i + 1]) == Trimmed(texts[..i]) + [Trim(texts[i])]
  {
    assert texts[..i + 1][..i] == texts[..i];
  }

  lemma SubstantialSnoc(texts: seq<string>, t: string)
    ensures Substantial(texts + [t]) ==
      if |t| >= MinParagraphLength then Substantial(texts) + [t] else Substantial(texts)
  {
    assert (texts + [t])[..|texts|] == texts;
  }

  /** The paragraph filter as written: trim, then drop a text if it is short or
      already in the set of texts kept so far. It computes the reference body. */
  method FilterParagraphs(texts: seq<string>) returns (kept: seq<string>)
    ensures kept == KeptParagraphs(texts)
  {
    var seen: set<string> := {};
    ghost var ts: seq<string> := [];
    kept := [];
    var i := 0;
    while i < |texts|
      invariant i <= |texts|
      invariant ts == Trimmed(texts[..i])
      invariant kept == Distinct(Substantial(ts))
      invariant forall t :: t in seen <==> t in kept
    {
      var text := Trim(texts[i]);
      TrimmedSnoc(texts, i);
      SubstantialSnoc(ts, text);
      if |text| < MinParagraphLength || text in seen {
        if |text| >= MinParagraphLength {
          DistinctSnoc(Substantial(ts), text);
        }
      } else {
        DistinctSnoc(Substantial(ts), text);
        seen := seen + {text};
        kept := kept + [text];
      }
      ts := ts + [text];
      i := i + 1;
    }
    assert texts[..i] == texts;
  }

  /** Filtering keeps relative order: of two survivors, the one first in the
      filtered list also occurs first in the input. */
  lemma {:induction false} SubstantialOrder(texts: seq<string>, x: string, y: string)
    requires x in texts && y in texts
    requires x in Substantial(texts) && y in Substantial(texts)
    requires IndexOf(Substantial(texts), x) < IndexOf(Substantial(texts), y)
    ensures IndexOf(texts, x) < IndexOf(texts, y)
  {
    var n := |texts| - 1;
    var init := texts[..n];
    var s0 := Substantial(init);
    var s := Substantial(texts);
    assert s == s0 || s == s0 + [texts[n]];
    assert s[..|s0|] == s0;
    if x in s0 && y in s0 {
      SubstantialFromInput(init, IndexOf(s0, x));
      SubstantialFromInput(init, IndexOf(s0, y));
      IndexOfPrefix(s, |s0|, x);
      IndexOfPrefix(s, |s0|, y);
      SubstantialOrder(init, x, y);
      IndexOfPrefix(texts, n, x);
      IndexOfPrefix(texts, n, y);
    } else if x in s0 {
      SubstantialFromInput(init, IndexOf(s0, x));
      assert y == texts[n] && y !in init;
      IndexOfPrefix(texts, n, x);
    } else {
      assert false;
    }
  }

  /** Every kept paragraph is trimmed, long enough, occurs once, and is the
      trimmed text of some paragraph of the input. */
  lemma KeptParagraphsSound(texts: seq<string>)
    ensures var kept := KeptParagraphs(texts);
      && NoDuplicates(kept)
      && (forall k :: 0 <= k < |kept| ==> |kept[k]| >= MinParagraphLength && IsTrimmed(kept[k]))
      && (forall k :: 0 <= k < |kept| ==> kept[k] in Trimmed(texts))
  {
    var ts := Trimmed(texts);
    var s := Substantial(ts);
    var kept := KeptParagraphs(texts);
    forall k | 0 <= k < |kept| ensures kept[k] in ts && IsTrimmed(kept[k]) {
      var j :| 0 <= j < |s| && s[j] == kept[k];
      SubstantialFromInput(ts, j);
      var i :| 0 <= i < |ts| && ts[i] == kept[k];
      TrimIsTrimmed(texts[i]);
    }
  }

  /** A paragraph is dropped only if its trimmed text is short: otherwise that
      text is kept (at its first occurrence). */
  lemma KeptParagraphsComplete(texts: seq<string>)
    ensures forall i :: 0 <= i < |texts| && |Trim(texts[i])| >= MinParagraphLength ==>
      Trim(texts[i]) in KeptParagraphs(texts)
  {
    var ts := Trimmed(texts);
    forall i | 0 <= i < |texts| && |Trim(texts[i])| >= MinParagraphLength
      ensures Trim(texts[i]) in KeptParagraphs(texts)
    {
      assert ts[i] == Trim(texts[i]);
    }
  }

  /** Survivors keep document order: of two kept paragraphs, the earlier one
      first occurs earlier among the trimmed input paragraphs. */
  lemma KeptParagraphsInOrder(texts: seq<string>)
    ensures var kept := KeptParagraphs(texts);
      && (forall k :: 0 <= k < |kept| ==> kept[k] in Trimmed(texts))
      && (forall k1, k2 :: 0 <= k1 < k2 < |kept| ==>
            IndexOf(Trimmed(texts), kept[k1]) < IndexOf(Trimmed(texts), kept[k2]))
  {
    var ts := Trimmed(texts);
    var s := Substantial(ts);
    var kept := Distinct(s);
    KeptParagraphsSound(texts);
    forall k1, k2 | 0 <= k1 < k2 < |kept|
      ensures IndexOf(ts, kept[k1]) < IndexOf(ts, kept[k2])
    {
      DistinctOrderAt(s, k1, k2);
      SubstantialFromInput(ts, IndexOf(s, kept[k1]));
      SubstantialFromInput(ts, IndexOf(s, kept[k2]));
      SubstantialOrder(ts, kept[k1], kept[k2]);
    }
  }

  /** The extractor. `None` stands for a page without `.single-article`. */
  function ExtractArticle(root: Option<ArticleRoot>): (r: Option<Article>)
    ensures r.None? <==> root.None?
    ensures r.Some? ==> r.value.content.Some?
    ensures r.Some? && root.value.titleText.None? ==> r.value.title == ""
    ensures r.Some? && root.value.dateText.None? ==> r.value.date == ""
    ensures r.Some? && root.value.imageSrc.None? ==> r.value.image == ""
    ensures r.Some? && root.value.paragraphs.None? ==> r.value.content == Some("")
    ensures r.Some? ==>
      && r.value.title == Trim(root.value.titleText.GetOr(""))
      && r.value.date == Trim(root.value.dateText.GetOr(""))
      && r.value.image == root.value.imageSrc.GetOr("")
    ensures r.Some? && root.value.paragraphs.Some? ==>
      r.value.content == Some(Join(KeptParagraphs(root.value.paragraphs.value), " "))
  {
    match root
    case None => None
    case Some(el) =>
      var title := Trim(el.titleText.GetOr(""));
      var date := Trim(el.dateText.GetOr(""));
      var image := el.imageSrc.GetOr("");
      var content := match el.paragraphs
        case None => ""
        case Some(ps) => Join(KeptParagraphs(ps), " ");
      Some(Article(title, date, image, Some(content)))
  }

  /** Title and date carry no surrounding white space. */
  lemma ExtractedFieldsTrimmed(root: ArticleRoot)
    ensures IsTrimmed(ExtractArticle(Some(root)).value.title)
    ensures IsTrimmed(ExtractArticle(Some(root)).value.date)
  {
    TrimIsTrimmed(root.titleText.GetOr(""));
    TrimIsTrimmed(root.dateText.GetOr(""));
  }

  /** The body is empty exactly when the content container is missing or no
      paragraph survives the filter; otherwise it starts with the first
      survivor, and its length is the survivors' total length plus one space
      between each pair. */
  lemma ContentEmptyIff(root: ArticleRoot)
    ensures var a := ExtractArticle(Some(root)).value;
      a.content == Some("") <==>
        root.paragraphs.None? || KeptParagraphs(root.paragraphs.value) == []
    ensures var a := ExtractArticle(Some(root)).value;
      root.paragraphs.Some? && KeptParagraphs(root.paragraphs.value) != [] ==>
        var kept := KeptParagraphs(root.paragraphs.value);
        && kept[0] <= a.content.value
        && |a.content.value| == TotalLength(kept) + |kept| - 1
  {
    if root.paragraphs.Some? {
      var kept := KeptParagraphs(root.paragraphs.value);
      JoinEmptyIff(kept);
      KeptParagraphsSound(root.paragraphs.value);
      if |kept| == 1 {
        assert |kept[0]| >= MinParagraphLength;
      }
    }
  }
}

=== FILE: dedup.dfy ===
/**
 * First-seen de-duplication, the `Set` + `push` idiom the extractors use:
 * an element is kept exactly when it has not occurred earlier in the input.
 */
module Dedup {

  /** No element occurs twice. */
  predicate NoDuplicates<T(==)>(xs: seq<T>) {
    forall i, j :: 0 <= i < j < |xs| ==> xs[i] != xs[j]
  }

  /** The input with every repeated occurrence removed. Defined by the last
      element so that it extends one step per loop iteration. */
  function Distinct<T(==)>(xs: seq<T>): (r: seq<T>)
    ensures NoDuplicates(r)
    ensures forall i :: 0 <= i < |r| ==> r[i] in xs
    ensures forall i :: 0 <= i < |xs| ==> xs[i] in r
    ensures |r| <= |xs|
  {
    if |xs| == 0 then []
    else
      var init := xs[..|xs| - 1];
      var x := xs[|xs| - 1];
      var d := Distinct(init);
      if x in init then d else d + [x]
  }

  /** Position of the first occurrence of `x`. */
  function IndexOf<T(==)>(xs: seq<T>, x: T): (i: nat)
    requires x in xs
    ensures i < |xs| && xs[i] == x && x !in xs[..i]
  {
    if xs[0] == x then 0
    else
      var i := IndexOf(xs[1..], x);
      assert xs[..i + 1] == [xs[0]] + xs[1..][..i];
      i + 1
  }

  /** The first occurrence in a prefix is the first occurrence in the whole. */
  lemma IndexOfPrefix<T>(xs: seq<T>, n: nat, x: T)
    requires n <= |xs| && x in xs[..n]
    ensures IndexOf(xs, x) == IndexOf(xs[..n], x)
  {
    assert xs[..n][..IndexOf(xs[..n], x)] == xs[..IndexOf(xs[..n], x)];
  }

  /** Two survivors in output order have their first occurrences in the same order. */
  lemma {:induction false} DistinctOrderAt<T>(xs: seq<T>, i: nat, j: nat)
    requires i < j < |Distinct(xs)|
    ensures IndexOf(xs, Distinct(xs)[i]) < IndexOf(xs, Distinct(xs)[j])
  {
    var n := |xs| - 1;
    var init := xs[..n];
    var d := Distinct(init);
    var r := Distinct(xs);
    assert r[i] == d[i];
    IndexOfPrefix(xs, n, r[i]);
    if j < |d| {
      DistinctOrderAt(init, i, j);
      IndexOfPrefix(xs, n, r[j]);
    } else {
      assert r[j] == xs[n] && xs[n] !in init;
    }
  }

  /** First-seen order: survivors appear in the order of their first occurrences. */
  lemma DistinctFirstSeenOrder<T>(xs: seq<T>)
    ensures var r := Distinct(xs);
      forall i, j :: 0 <= i < j < |r| ==> IndexOf(xs, r[i]) < IndexOf(xs, r[j])
  {
    var r := Distinct(xs);
    forall i, j | 0 <= i < j < |r|
      ensures IndexOf(xs, r[i]) < IndexOf(xs, r[j])
    {
      DistinctOrderAt(xs, i, j);
    }
  }

  /** An input without repetitions passes through unchanged. */
  lemma {:induction false} DistinctOfDistinct<T>(xs: seq<T>)
    requires NoDuplicates(xs)
    ensures Distinct(xs) == xs
  {
    if |xs| > 0 {
      var init := xs[..|xs| - 1];
      assert NoDuplicates(init);
      DistinctOfDistinct(init);
      assert xs[|xs| - 1] !in init;
      assert init + [xs[|xs| - 1]] == xs;
    }
  }

  /** De-duplicating twice is de-duplicating once. */
  lemma DistinctIdempotent<T>(xs: seq<T>)
    ensures Distinct(Distinct(xs)) == Distinct(xs)
  {
    DistinctOfDistinct(Distinct(xs));
  }

  /** One more input element extends the result by that element exactly when
      it has not been seen. */
  lemma DistinctSnoc<T>(xs: seq<T>, x: T)
    ensures x in Distinct(xs) <==> x in xs
    ensures Distinct(xs + [x]) == if x in xs then Distinct(xs) else Distinct(xs) + [x]
  {
    assert (xs + [x])[..|xs|] == xs;
    if x in xs {
      var i :| 0 <= i < |xs| && xs[i] == x;
    }
    if x in Distinct(xs) {
      var k :| 0 <= k < |Distinct(xs)| && Distinct(xs)[k] == x;
    }
  }
}

=== FILE: ingest.dfy ===
/**
 * `fetchAndInsertPosts` and `fetchAndInsertAllPosts`: one category's scraped
 * posts folded into the store in order, and the fixed list of categories
 * processed one after another.
 */
module Ingest {
  import opened Wrappers
  import opened ArticleExtractor
  import opened NewsPost
  import opened Punch

  /** Store failures during one category's batch, by position of the post in
      the batch: the title lookup throws, or the save fails. */
  datatype Faults = Faults(lookupFails: set<nat>, saveFails: set<nat>)

  /** The store while folding a batch, and whether an exception left the loop. */
  datatype Batch = Batch(store: Store, stopped: bool)

  /** No two records share a title. */
  predicate TitlesUnique(store: Store) {
    forall i, j :: 0 <= i < j < |store| ==> store[i].title != store[j].title
  }

  /** Some record has this title. */
  predicate HasTitle(store: Store, title: string) {
    exists i :: 0 <= i < |store| && store[i].title == title
  }

  /** One iteration for the post at position `pos`: skip a null body, stop on
      a throwing lookup, skip a stored title, otherwise save (a failed save is
      swallowed by `saveNews`). */
  function InsertStep(b: Batch, post: Article, pos: nat, categoryId: string, categoryName: string,
                      faults: Faults): Batch
  {
    if b.stopped || post.content.None? then b
    else if pos in faults.lookupFails then b.(stopped := true)
    else if FindNewsByTitle(b.store, post.title).Some? then b
    else Batch(SaveNews(b.store, post, categoryId, Some(categoryName), pos in faults.saveFails).store, false)
  }

  /** The `for` loop over a batch. It only appends, and every appended record
      carries the category and a body. */
  function InsertAll(store: Store, posts: seq<Article>, categoryId: string, categoryName: string,
                     faults: Faults): (r: Batch)
    ensures |store| <= |r.store| && r.store[..|store|] == store
    ensures forall k :: |store| <= k < |r.store| ==>
      && r.store[k].categoryId == categoryId
      && r.store[k].categoryName == categoryName
      && r.store[k].content.Some?
    ensures WellFormed(store) ==> WellFormed(r.store)
  {
    if |posts| == 0 then Batch(store, false)
    else
      var n := |posts| - 1;
      var b := InsertAll(store, posts[..n], categoryId, categoryName, faults);
      var r := InsertStep(b, posts[n], n, categoryId, categoryName, faults);
      assert r.store[..|b.store|] == b.store;
      assert r.store[..|store|] == b.store[..|store|];
      r
  }

  /** A post without a body is skipped before its title is looked up: it
      changes nothing, and a lookup fault at its position cannot end the batch. */
  lemma {:induction false} NullBodySkipped(store: Store, posts: seq<Article>, i: nat,
                                           categoryId: string, categoryName: string, faults: Faults)
    requires i < |posts| && posts[i].content.None?
    ensures InsertAll(store, posts[..i + 1], categoryId, categoryName, faults) ==
            InsertAll(store, posts[..i], categoryId, categoryName, faults)
    ensures InsertAll(store, posts[..i + 1], categoryId, categoryName, faults) ==
            InsertAll(store, posts[..i + 1], categoryId, categoryName, faults.(lookupFails := faults.lookupFails + {i}))
  {
    var f2 := faults.(lookupFails := faults.lookupFails + {i});
    assert posts[..i + 1][..i] == posts[..i];
    InsertAllIgnoresLaterFaults(store, posts[..i], i, categoryId, categoryName, faults, f2);
  }

  /** Faults at positions past the end of a batch play no part in it. */
  lemma {:induction false} InsertAllIgnoresLaterFaults(store: Store, posts: seq<Article>, i: nat,
                                                       categoryId: string, categoryName: string,
                                                       f1: Faults, f2: Faults)
    requires |posts| <= i
    requires forall p :: 0 <= p < i ==> (p in f1.lookupFails <==> p in f2.lookupFails)
    requires forall p :: 0 <= p < i ==> (p in f1.saveFails <==> p in f2.saveFails)
    ensures InsertAll(store, posts, categoryId, categoryName, f1) ==
            InsertAll(store, posts, categoryId, categoryName, f2)
  {
    if |posts| > 0 {
      var n := |posts| - 1;
      InsertAllIgnoresLaterFaults(store, posts[..n], i, categoryId, categoryName, f1, f2);
    }
  }

  /** `fetchAndInsertPosts` for one category, given what `pageScrapper`
      resolved with: a rejected scrape is caught, an empty batch returns
      early, and both leave the store unchanged. */
  function FetchAndInsertPosts(store: Store, scrape: Scrape, categoryId: string, categoryName: string,
                               faults: Faults): (r: Store)
    ensures scrape.Rejected() || |scrape.posts| == 0 ==> r == store
    ensures scrape.Scraped? && |scrape.posts| > 0 ==>
      r == InsertAll(store, scrape.posts, categoryId, categoryName, faults).store
    ensures WellFormed(store) ==> WellFormed(r)
    ensures |store| <= |r| && r[..|store|] == store
    ensures forall k :: |store| <= k < |r| ==>
      r[k].categoryId == categoryId && r[k].categoryName == categoryName
  {
    match scrape
    case LaunchFailed => store
    case InterceptFailed => store
    case BrowserCloseFailed => store
    case Scraped(posts, _) =>
      if |posts| < 1 then store
      else InsertAll(store, posts, categoryId, categoryName, faults).store
  }

  /** Every appended record is the post at some position of the batch, stored
      field for field with its raw date string; that post had a body, passed
      validation and was not hit by a save failure, and its title occurred
      nowhere in the store before it. */
  lemma {:induction false} InsertedFromBatch(store: Store, posts: seq<Article>, categoryId: string,
                                             categoryName: string, faults: Faults, k: nat)
    returns (i: nat)
    requires |store| <= k < |InsertAll(store, posts, categoryId, categoryName, faults).store|
    ensures i < |posts| && i !in faults.saveFails && posts[i].content.Some?
    ensures PassesValidation(posts[i], categoryId)
    ensures var rec := InsertAll(store, posts, categoryId, categoryName, faults).store[k];
      && rec.title == posts[i].title && rec.date == posts[i].date
      && rec.image == posts[i].image && rec.content == posts[i].content
    ensures !HasTitle(InsertAll(store, posts, categoryId, categoryName, faults).store[..k],
                      InsertAll(store, posts, categoryId, categoryName, faults).store[k].title)
  {
    var n := |posts| - 1;
    var b := InsertAll(store, posts[..n], categoryId, categoryName, faults);
    var r := InsertAll(store, posts, categoryId, categoryName, faults);
    assert r.store[..|b.store|] == b.store;
    if k < |b.store| {
      i := InsertedFromBatch(store, posts[..n], categoryId, categoryName, faults, k);
      assert posts[..n][i] == posts[i];
      assert r.store[..k] == b.store[..k];
    } else {
      i := n;
      assert r.store[..k] == b.store;
      assert FindNewsByTitle(b.store, posts[n].title).None?;
    }
  }

  /** An exception stays: once the loop has been left, later posts change nothing. */
  lemma {:induction false} StoppedSticky(store: Store, posts: seq<Article>, p: nat, categoryId: string,
                                         categoryName: string, faults: Faults)
    requires p <= |posts| && InsertAll(store, posts[..p], categoryId, categoryName, faults).stopped
    ensures InsertAll(store, posts, categoryId, categoryName, faults) ==
            InsertAll(store, posts[..p], categoryId, categoryName, faults)
  {
    if p < |posts| {
      var n := |posts| - 1;
      assert posts[..n][..p] == posts[..p];
      StoppedSticky(store, posts[..n], p, categoryId, categoryName, faults);
      var b := InsertAll(store, posts[..n], categoryId, categoryName, faults);
      assert b.stopped;
      assert InsertAll(store, posts, categoryId, categoryName, faults) ==
             InsertStep(b, posts[n], n, categoryId, categoryName, faults);
    } else {
      assert posts[..p] == posts;
    }
  }

  /** Some post with a body has a throwing title lookup. */
  predicate LookupThrows(posts: seq<Article>, faults: Faults) {
    exists p :: 0 <= p < |posts| && posts[p].content.Some? && p in faults.lookupFails
  }

  /** Only a throwing lookup ends the batch: a stored title is skipped, and a
      failed save is swallowed, so neither leaves the loop. */
  lemma {:induction false} StopsOnlyOnLookup(store: Store, posts: seq<Article>, categoryId: string,
                                             categoryName: string, faults: Faults)
    ensures InsertAll(store, posts, categoryId, categoryName, faults).stopped <==> LookupThrows(posts, faults)
  {
    if |posts| > 0 {
      var n := |posts| - 1;
      StopsOnlyOnLookup(store, posts[..n], categoryId, categoryName, faults);
      if LookupThrows(posts[..n], faults) {
        var p :| 0 <= p < n && posts[..n][p].content.Some? && p in faults.lookupFails;
        assert posts[p] == posts[..n][p];
      }
      if LookupThrows(posts, faults) {
        var p :| 0 <= p < |posts| && posts[p].content.Some? && p in faults.lookupFails;
        if p < n {
          assert posts[..n][p] == posts[p];
        }
      }
    }
  }

  /** A throwing lookup ends the batch: the first post with a body whose
      lookup throws leaves the store as the posts before it made it. */
  lemma {:induction false} LookupFailureStops(store: Store, posts: seq<Article>, p: nat, categoryId: string,
                                              categoryName: string, faults: Faults)
    requires p < |posts| && posts[p].content.Some? && p in faults.lookupFails
    ensures InsertAll(store, posts, categoryId, categoryName, faults).stopped
    ensures InsertAll(store, posts, categoryId, categoryName, faults).store ==
            InsertAll(store, posts[..p], categoryId, categoryName, faults).store
  {
    assert posts[..p + 1][..p] == posts[..p];
    var b := InsertAll(store, posts[..p], categoryId, categoryName, faults);
    if b.stopped {
      StoppedSticky(store, posts, p, categoryId, categoryName, faults);
    } else {
      StoppedSticky(store, posts, p + 1, categoryId, categoryName, faults);
    }
  }

  /** A title present in a store stays present in any extension of it. */
  lemma HasTitleGrows(s: Store, t: Store, title: string)
    requires |s| <= |t| && t[..|s|] == s && HasTitle(s, title)
    ensures HasTitle(t, title)
  {
    var j :| 0 <= j < |s| && s[j].title == title;
    assert t[j] == t[..|s|][j];
  }

  /** One iteration that does not stop leaves a post with a body that passes
      validation and saves under its title in the store. */
  lemma StepStoresTitle(b: Batch, post: Article, pos: nat, categoryId: string, categoryName: string,
                        faults: Faults)
    requires !InsertStep(b, post, pos, categoryId, categoryName, faults).stopped
    requires post.content.Some? && PassesValidation(post, categoryId) && pos !in faults.saveFails
    ensures HasTitle(InsertStep(b, post, pos, categoryId, categoryName, faults).store, post.title)
  {
    var r := InsertStep(b, post, pos, categoryId, categoryName, faults);
    if FindNewsByTitle(b.store, post.title).Some? {
      HasTitleGrows(b.store, r.store, post.title);
    } else {
      assert r.store[|b.store|].title == post.title;
    }
  }

  /** Without a throwing lookup, every post with a body that passes validation
      and whose save does not fail ends up stored: by itself, or because a
      record with its title was already there (earlier in the store or the
      batch). Note the body test is `== null`: an empty body is no reason to skip. */
  lemma {:induction false} BatchComplete(store: Store, posts: seq<Article>, categoryId: string,
                                         categoryName: string, faults: Faults)
    requires forall p :: 0 <= p < |posts| && posts[p].content.Some? ==> p !in faults.lookupFails
    ensures forall i :: (0 <= i < |posts| && posts[i].content.Some? &&
                         PassesValidation(posts[i], categoryId) && i !in faults.saveFails) ==>
        HasTitle(InsertAll(store, posts, categoryId, categoryName, faults).store, posts[i].title)
  {
    if |posts| > 0 {
      var n := |posts| - 1;
      var b := InsertAll(store, posts[..n], categoryId, categoryName, faults);
      var r := InsertAll(store, posts, categoryId, categoryName, faults);
      assert r == InsertStep(b, posts[n], n, categoryId, categoryName, faults);
      StopsOnlyOnLookup(store, posts, categoryId, categoryName, faults);
      assert !b.stopped;
      assert forall p :: 0 <= p < n ==> posts[..n][p] == posts[p];
      BatchComplete(store, posts[..n], categoryId, categoryName, faults);
      forall i | 0 <= i < |posts| && posts[i].content.Some? &&
        PassesValidation(posts[i], categoryId) && i !in faults.saveFails
        ensures HasTitle(r.store, posts[i].title)
      {
        if i < n {
          assert posts[..n][i] == posts[i];
          HasTitleGrows(b.store, r.store, posts[i].title);
        } else {
          StepStoresTitle(b, posts[n], n, categoryId, categoryName, faults);
        }
      }
    }
  }

  /** Appending never breaks title uniqueness: a record is only appended when
      its title is not yet stored. */
  lemma TitlesStayUnique(store: Store, posts: seq<Article>, categoryId: string,
                         categoryName: string, faults: Faults)
    requires TitlesUnique(store)
    ensures TitlesUnique(InsertAll(store, posts, categoryId, categoryName, faults).store)
  {
    var r := InsertAll(store, posts, categoryId, categoryName, faults).store;
    forall i, j | 0 <= i < j < |r| ensures r[i].title != r[j].title {
      if j < |store| {
        assert r[i] == store[i] && r[j] == store[j];
      } else {
        var p := InsertedFromBatch(store, posts, categoryId, categoryName, faults, j);
        assert r[..j][i] == r[i];
      }
    }
  }

  /** Posts that differ only in their date. */
  predicate SameButDate(a: Article, b: Article) {
    a.(date := "") == b.(date := "")
  }

  /** Stores that differ only in the dates of their records. */
  predicate SameModuloDates(s1: Store, s2: Store) {
    && |s1| == |s2|
    && forall k :: 0 <= k < |s1| ==> s1[k].(date := "") == s2[k].(date := "")
  }

  /** One iteration ignores the date. */
  lemma StepDateIrrelevant(b1: Batch, b2: Batch, p1: Article, p2: Article, pos: nat,
                           categoryId: string, categoryName: string, faults: Faults)
    requires b1.stopped == b2.stopped && SameModuloDates(b1.store, b2.store)
    requires SameButDate(p1, p2) && p1.date != "" && p2.date != ""
    ensures var r1 := InsertStep(b1, p1, pos, categoryId, categoryName, faults);
      var r2 := InsertStep(b2, p2, pos, categoryId, categoryName, faults);
      r1.stopped == r2.stopped && SameModuloDates(r1.store, r2.store)
  {
    assert p1.title == p2.title && p1.content == p2.content && p1.image == p2.image by {
      assert p1.(date := "") == p2.(date := "");
    }
    TitlesModuloDates(b1.store, b2.store, p1.title);
  }

  /** Stores that differ only in dates hold the same titles. */
  lemma TitlesModuloDates(s1: Store, s2: Store, title: string)
    requires SameModuloDates(s1, s2)
    ensures HasTitle(s1, title) <==> HasTitle(s2, title)
  {
    if HasTitle(s1, title) {
      var j :| 0 <= j < |s1| && s1[j].title == title;
      assert s1[j].(date := "").title == s2[j].(date := "").title;
    }
    if HasTitle(s2, title) {
      var j :| 0 <= j < |s2| && s2[j].title == title;
      assert s1[j].(date := "").title == s2[j].(date := "").title;
    }
  }

  /** The date plays no part in the decisions: two batches that differ only
      in (non-empty) dates produce stores that differ only in dates. */
  lemma {:induction false} DateIrrelevant(store: Store, posts1: seq<Article>, posts2: seq<Article>,
                                          categoryId: string, categoryName: string, faults: Faults)
    requires |posts1| == |posts2|
    requires forall i :: 0 <= i < |posts1| ==> SameButDate(posts1[i], posts2[i])
    requires forall i :: 0 <= i < |posts1| ==> posts1[i].date != "" && posts2[i].date != ""
    ensures var r1 := InsertAll(store, posts1, categoryId, categoryName, faults);
      var r2 := InsertAll(store, posts2, categoryId, categoryName, faults);
      r1.stopped == r2.stopped && SameModuloDates(r1.store, r2.store)
  {
    if |posts1| > 0 {
      var n := |posts1| - 1;
      DateIrrelevant(store, posts1[..n], posts2[..n], categoryId, categoryName, faults);
      var b1 := InsertAll(store, posts1[..n], categoryId, categoryName, faults);
      var b2 := InsertAll(store, posts2[..n], categoryId, categoryName, faults);
      StepDateIrrelevant(b1, b2, posts1[n], posts2[n], n, categoryId, categoryName, faults);
    }
  }

  /** One configured category: listing path, category id and name. */
  datatype Source = Source(path: string, id: string, name: string)

  const HomePageNewsId: string := "27e3d94c-2462-4e7e-9840-efe7604ffcab"
  const NewsCategoryId: string := "2ab36b15-fdf4-4a88-b05f-b6d96c71cabf"
  const FeaturedCategoryId: string := "f7ca96e7-958a-41b9-ad21-ad7059588290"
  const PoliticsCategoryId: string := "f7ca96e7-958a-41b9-ad21-ad7059396286"
  const SportsCategoryId: string := "f7ca96e7-958a-41b9-ad21-ad70w4534346"
  const BusinessCategoryId: string := "f7ca96e7-3246-41b9-ad21-ad70w4534346"
  const LiteCategoryId: string := "f7ca96e7-958a-41b9-ad21-ad70w4ceawegas"

  /** The categories in declared order. */
  const Sources: seq<Source> := [
    Source("all-posts", HomePageNewsId, "HomePage"),
    Source("topics/news", NewsCategoryId, "News"),
    Source("topics/featured", FeaturedCategoryId, "Featured"),
    Source("topics/politics", PoliticsCategoryId, "Politics"),
    Source("topics/sports", SportsCategoryId, "Sports"),
    Source("topics/business", BusinessCategoryId, "Business"),
    Source("topics/punch-lite", LiteCategoryId, "Lite")]

  /** What happened to one category in a pass: what its scrape resolved with,
      and the store failures during its batch. */
  datatype CategoryRun = CategoryRun(scrape: Scrape, faults: Faults)

  /** Categories processed one after another, each awaited before the next. */
  function IngestSeq(store: Store, sources: seq<Source>, runs: seq<CategoryRun>): (r: Store)
    requires |sources| == |runs|
    ensures |store| <= |r| && r[..|store|] == store
    ensures WellFormed(store) ==> WellFormed(r)
    decreases |sources|
  {
    if |sources| == 0 then store
    else
      var next := FetchAndInsertPosts(store, runs[0].scrape, sources[0].id, sources[0].name, runs[0].faults);
      var r := IngestSeq(next, sources[1..], runs[1..]);
      assert r[..|store|] == next[..|store|];
      r
  }

  /** `fetchAndInsertAllPosts`: one pass over the configured categories. */
  function FetchAndInsertAllPosts(store: Store, runs: seq<CategoryRun>): (r: Store)
    requires |runs| == |Sources|
    ensures |store| <= |r| && r[..|store|] == store
    ensures forall k :: |store| <= k < |r| ==> InSomeCategory(r[k], Sources)
    ensures WellFormed(store) ==> WellFormed(r)
  {
    IngestSeqCategories(store, Sources, runs);
    IngestSeq(store, Sources, runs)
  }

  /** The record is filed under one of the given categories. */
  predicate InSomeCategory(rec: NewsRecord, sources: seq<Source>) {
    exists c :: 0 <= c < |sources| && rec.categoryId == sources[c].id && rec.categoryName == sources[c].name
  }

  /** Records appended by a sequence of categories carry one of their ids and names. */
  lemma {:induction false} IngestSeqCategories(store: Store, sources: seq<Source>, runs: seq<CategoryRun>)
    requires |sources| == |runs|
    ensures forall k :: |store| <= k < |IngestSeq(store, sources, runs)| ==>
      InSomeCategory(IngestSeq(store, sources, runs)[k], sources)
    decreases |sources|
  {
    if |sources| > 0 {
      var next := FetchAndInsertPosts(store, runs[0].scrape, sources[0].id, sources[0].name, runs[0].faults);
      IngestSeqCategories(next, sources[1..], runs[1..]);
      var r := IngestSeq(store, sources, runs);
      assert r == IngestSeq(next, sources[1..], runs[1..]);
      forall k | |store| <= k < |r|
        ensures InSomeCategory(r[k], sources)
      {
        if k < |next| {
          assert r[k] == r[..|next|][k];
          assert r[k].categoryId == sources[0].id && r[k].categoryName == sources[0].name;
        } else {
          assert InSomeCategory(r[k], sources[1..]);
          var c :| 0 <= c < |sources[1..]| && r[k].categoryId == sources[1..][c].id && r[k].categoryName == sources[1..][c].name;
          assert sources[1..][c] == sources[c + 1];
        }
      }
    }
  }

  /** Processing a sequence of categories is processing a prefix, then the rest. */
  lemma {:induction false} IngestSeqSplit(store: Store, sources: seq<Source>, runs: seq<CategoryRun>, k: nat)
    requires |sources| == |runs| && k <= |sources|
    ensures IngestSeq(store, sources, runs) ==
      IngestSeq(IngestSeq(store, sources[..k], runs[..k]), sources[k..], runs[k..])
    decreases k
  {
    if k > 0 {
      var next := FetchAndInsertPosts(store, runs[0].scrape, sources[0].id, sources[0].name, runs[0].faults);
      IngestSeqSplit(next, sources[1..], runs[1..], k - 1);
      assert sources[1..][..k - 1] == sources[..k][1..];
      assert runs[1..][..k - 1] == runs[..k][1..];
      assert sources[1..][k - 1..] == sources[k..];
      assert runs[1..][k - 1..] == runs[k..];
    } else {
      assert sources[k..] == sources && runs[k..] == runs;
    }
  }

  /** A category whose scrape rejects changes nothing, and the categories after
      it still run: the pass is the pass without that category. */
  lemma CategoryFailureContained(store: Store, runs: seq<CategoryRun>, k: nat)
    requires |runs| == |Sources| && k < |Sources|
    requires runs[k].scrape.Rejected()
    ensures FetchAndInsertAllPosts(store, runs) ==
      IngestSeq(store, Sources[..k] + Sources[k + 1..], runs[..k] + runs[k + 1..])
  {
    IngestSeqSplit(store, Sources, runs, k);
    var mid := IngestSeq(store, Sources[..k], runs[..k]);
    assert Sources[k..][1..] == Sources[k + 1..];
    assert runs[k..][1..] == runs[k + 1..];
    var s2 := Sources[..k] + Sources[k + 1..];
    var r2 := runs[..k] + runs[k + 1..];
    IngestSeqSplit(store, s2, r2, k);
    assert s2[..k] == Sources[..k] && r2[..k] == runs[..k];
    assert s2[k..] == Sources[k + 1..] && r2[k..] == runs[k + 1..];
  }

  /** The seven categories have distinct paths, ids and names. */
  lemma SourcesDistinct()
    ensures |Sources| == 7
    ensures forall a, b :: 0 <= a < b < |Sources| ==>
      Sources[a].path != Sources[b].path && Sources[a].id != Sources[b].id && Sources[a].name != Sources[b].name
  {
  }

  predicate IdsDistinct(sources: seq<Source>) {
    forall a, b :: 0 <= a < b < |sources| ==> sources[a].id != sources[b].id
  }

  /** Categories are handled in order: once a record of a later category has
      been appended, no record of an earlier category follows it. */
  lemma {:induction false} IngestSeqGrouped(store: Store, sources: seq<Source>, runs: seq<CategoryRun>,
                                            i: nat, j: nat, a: nat, b: nat)
    requires |sources| == |runs| && IdsDistinct(sources)
    requires |store| <= i < j < |IngestSeq(store, sources, runs)|
    requires a < b < |sources|
    requires IngestSeq(store, sources, runs)[i].categoryId == sources[b].id
    ensures IngestSeq(store, sources, runs)[j].categoryId != sources[a].id
    decreases |sources|
  {
    var next := FetchAndInsertPosts(store, runs[0].scrape, sources[0].id, sources[0].name, runs[0].faults);
    var r := IngestSeq(store, sources, runs);
    IngestSeqHead(store, sources, runs);
    if i >= |next| {
      IngestSeqCategories(next, sources[1..], runs[1..]);
      if a == 0 {
        assert InSomeCategory(r[j], sources[1..]);
        var c :| 0 <= c < |sources[1..]| && r[j].categoryId == sources[1..][c].id && r[j].categoryName == sources[1..][c].name;
        assert sources[1..][c] == sources[c + 1];
      } else {
        assert sources[1..][a - 1] == sources[a] && sources[1..][b - 1] == sources[b];
        IngestSeqGrouped(next, sources[1..], runs[1..], i, j, a - 1, b - 1);
      }
    }
  }

  /** The first category's records come first, filed under its id. */
  lemma IngestSeqHead(store: Store, sources: seq<Source>, runs: seq<CategoryRun>)
    requires |sources| == |runs| > 0
    ensures var next := FetchAndInsertPosts(store, runs[0].scrape, sources[0].id, sources[0].name, runs[0].faults);
      && IngestSeq(store, sources, runs) == IngestSeq(next, sources[1..], runs[1..])
      && |next| <= |IngestSeq(store, sources, runs)|
      && forall k :: |store| <= k < |next| ==> IngestSeq(store, sources, runs)[k].categoryId == sources[0].id
  {
    var next := FetchAndInsertPosts(store, runs[0].scrape, sources[0].id, sources[0].name, runs[0].faults);
    var r := IngestSeq(store, sources, runs);
    assert r == IngestSeq(next, sources[1..], runs[1..]);
    forall k | |store| <= k < |next| ensures r[k].categoryId == sources[0].id {
      assert r[k] == r[..|next|][k];
    }
  }

  /** The pass files records category by category in the order of `Sources`. */
  lemma CategoryOrder(store: Store, runs: seq<CategoryRun>, i: nat, j: nat, a: nat, b: nat)
    requires |runs| == |Sources|
    requires |store| <= i < j < |FetchAndInsertAllPosts(store, runs)|
    requires a < b < |Sources|
    requires FetchAndInsertAllPosts(store, runs)[i].categoryId == Sources[b].id
    ensures FetchAndInsertAllPosts(store, runs)[j].categoryId != Sources[a].id
  {
    SourcesDistinct();
    IngestSeqGrouped(store, Sources, runs, i, j, a, b);
  }
}

=== FILE: link_extractor.dfy ===
/**
 * `scraperAllPostFunction`: the article links of a category listing. The
 * `href` of every anchor inside `#category-page` is made absolute by plain
 * string concatenation with the site URL unless it already starts with
 * "http"; links are then de-duplicated in first-seen order.
 */
module LinkExtractor {
  import opened Wrappers
  import opened Dedup

  /** The listing as the extractor sees it: `None` when `#category-page` is
      absent, otherwise the `href` attribute of each anchor inside it in
      document order (`None` for an anchor without one). */
  type Container = Option<seq<Option<string>>>

  /** `if (href)`: present and non-empty. */
  predicate HasHref(href: Option<string>) {
    href.Some? && href.value != ""
  }

  /** `href.startsWith("http") ? href : SITE_URL + href`. */
  function Resolve(siteUrl: string, href: string): string {
    if "http" <= href then href else siteUrl + href
  }

  /** The resolved links of the anchors that have an `href`, in document order,
      repetitions included. */
  function Candidates(siteUrl: string, anchors: seq<Option<string>>): (r: seq<string>)
    ensures |r| <= |anchors|
    ensures forall i :: 0 <= i < |anchors| && HasHref(anchors[i]) ==>
      Resolve(siteUrl, anchors[i].value) in r
  {
    if |anchors| == 0 then []
    else
      var n := |anchors| - 1;
      var rest := Candidates(siteUrl, anchors[..n]);
      assert forall i :: 0 <= i < n ==> anchors[..n][i] == anchors[i];
      if HasHref(anchors[n]) then rest + [Resolve(siteUrl, anchors[n].value)] else rest
  }

  /** Every candidate comes from some anchor that has an `href`. */
  lemma {:induction false} CandidateOrigin(siteUrl: string, anchors: seq<Option<string>>, k: nat)
    returns (i: nat)
    requires k < |Candidates(siteUrl, anchors)|
    ensures i < |anchors| && HasHref(anchors[i])
    ensures Candidates(siteUrl, anchors)[k] == Resolve(siteUrl, anchors[i].value)
  {
    var n := |anchors| - 1;
    var rest := Candidates(siteUrl, anchors[..n]);
    if k < |rest| {
      i := CandidateOrigin(siteUrl, anchors[..n], k);
      assert anchors[..n][i] == anchors[i];
    } else {
      i := n;
    }
  }

  /** One more anchor adds its resolved link, if it has an `href`. */
  lemma CandidatesSnoc(siteUrl: string, anchors: seq<Option<string>>, i: nat)
    requires i < |anchors|
    ensures Candidates(siteUrl, anchors[..i + 1]) ==
      Candidates(siteUrl, anchors[..i]) +
      (if HasHref(anchors[i]) then [Resolve(siteUrl, anchors[i].value)] else [])
  {
    assert anchors[..i + 1][..i] == anchors[..i];
  }

  /** The reference result: the candidates without repetitions. */
  function UniqueLinks(siteUrl: string, container: Container): seq<string> {
    match container
    case None => []
    case Some(anchors) => Distinct(Candidates(siteUrl, anchors))
  }

  /** What the listing yields: nothing without the container; otherwise no link
      twice, the resolved link of every anchor with an `href`, nothing that does
      not come from such an anchor, and links in the order first seen. */
  lemma UniqueLinksSpec(siteUrl: string, container: Container)
    ensures container.None? ==> UniqueLinks(siteUrl, container) == []
    ensures NoDuplicates(UniqueLinks(siteUrl, container))
    ensures container.Some? ==> forall i :: 0 <= i < |container.value| && HasHref(container.value[i]) ==>
      Resolve(siteUrl, container.value[i].value) in UniqueLinks(siteUrl, container)
    ensures forall l :: l in UniqueLinks(siteUrl, container) ==>
      (container.Some? &&
       exists i :: 0 <= i < |container.value| && HasHref(container.value[i]) &&
         l == Resolve(siteUrl, container.value[i].value))
    ensures container.Some? ==>
      var c := Candidates(siteUrl, container.value);
      var links := UniqueLinks(siteUrl, container);
      forall k1, k2 :: 0 <= k1 < k2 < |links| ==> IndexOf(c, links[k1]) < IndexOf(c, links[k2])
  {
    if container.Some? {
      var c := Candidates(siteUrl, container.value);
      var links := Distinct(c);
      forall l | l in links
        ensures exists i :: 0 <= i < |container.value| && HasHref(container.value[i]) &&
                            l == Resolve(siteUrl, container.value[i].value)
      {
        var k :| 0 <= k < |c| && c[k] == l;
        var i := CandidateOrigin(siteUrl, container.value, k);
      }
      forall k1, k2 | 0 <= k1 < k2 < |links|
        ensures IndexOf(c, links[k1]) < IndexOf(c, links[k2])
      {
        DistinctOrderAt(c, k1, k2);
      }
    }
  }

  /** The extractor as written: one pass over the anchors with a set of links
      already emitted. It computes the reference result. */
  method ScraperAllPost(siteUrl: string, container: Container) returns (links: seq<string>)
    ensures links == UniqueLinks(siteUrl, container)
  {
    if container.None? {
      return [];
    }
    var anchors := container.value;
    var seen: set<string> := {};
    links := [];
    var i := 0;
    while i < |anchors|
      invariant i <= |anchors|
      invariant links == Distinct(Candidates(siteUrl, anchors[..i]))
      invariant forall l :: l in seen <==> l in links
    {
      var href := anchors[i];
      ghost var before := Candidates(siteUrl, anchors[..i]);
      CandidatesSnoc(siteUrl, anchors, i);
      if href.Some? && href.value != "" {
        var fullLink := Resolve(siteUrl, href.value);
        assert Candidates(siteUrl, anchors[..i + 1]) == before + [fullLink];
        DistinctSnoc(before, fullLink);
        if fullLink !in seen {
          seen := seen + {fullLink};
          links := links + [fullLink];
        }
      } else {
        assert Candidates(siteUrl, anchors[..i + 1]) == before;
      }
      i := i + 1;
    }
    assert anchors[..i] == anchors;
  }

  /** Every emitted link is non-empty, so the orchestrator's `!post?.link`
      guard never skips one of them. */
  lemma LinksNonEmpty(siteUrl: string, container: Container)
    ensures forall l :: l in UniqueLinks(siteUrl, container) ==> l != ""
  {
    if container.Some? {
      var r := Candidates(siteUrl, container.value);
      forall k | 0 <= k < |r| ensures r[k] != "" {
        var i := CandidateOrigin(siteUrl, container.value, k);
        assert |Resolve(siteUrl, container.value[i].value)| >= |container.value[i].value|;
      }
    }
  }

  /** With an absolute site URL, resolving an already resolved link changes nothing. */
  lemma ResolveIdempotent(siteUrl: string, href: string)
    requires "http" <= siteUrl
    ensures Resolve(siteUrl, Resolve(siteUrl, href)) == Resolve(siteUrl, href)
  {
    if !("http" <= href) {
      assert (siteUrl + href)[..4] == siteUrl[..4];
    }
  }
}

=== FILE: months.dfy ===
/**
 * `MonthReplacer`: English month name to its two-digit number. The lookup is a
 * property read on an object literal, so it is modelled twice: as written,
 * where names inherited from `Object.prototype` are found too, and as
 * intended, where only the twelve month names are.
 */
module Months {

  /** The month names in calendar order. */
  const MonthNames: seq<string> := [
    "January", "February", "March", "April", "May", "June",
    "July", "August", "September", "October", "November", "December"]

  /** The object literal of the source. */
  const MonthTable: map<string, string> := map[
    "January" := "01", "February" := "02", "March" := "03",
    "April" := "04", "May" := "05", "June" := "06",
    "July" := "07", "August" := "08", "September" := "09",
    "October" := "10", "November" := "11", "December" := "12"]

  /** `n` as two decimal digits, for 0 <= n < 100. */
  function TwoDigits(n: nat): (r: string)
    requires n < 100
    ensures |r| == 2 && '0' <= r[0] <= '9' && '0' <= r[1] <= '9'
    ensures ((r[0] as int) - ('0' as int)) * 10 + ((r[1] as int) - ('0' as int)) == n
  {
    [(('0' as int) + n / 10) as char, (('0' as int) + n % 10) as char]
  }

  /** The lookup as intended: a month name gives a number, every other
      string gives "". */
  function MonthNumber(name: string): (r: string)
    ensures r == "" <==> name !in MonthNames
  {
    if name in MonthTable then MonthTable[name] else ""
  }

  /** Calendar order: the i-th month (from 0) is numbered i + 1, in two digits. */
  lemma MonthNumberCalendarOrder(i: nat)
    requires i < |MonthNames|
    ensures MonthNumber(MonthNames[i]) == TwoDigits(i + 1)
  {
    if i < 6 {
      if i < 3 {
        assert i == 0 || i == 1 || i == 2;
      } else {
        assert i == 3 || i == 4 || i == 5;
      }
    } else if i < 9 {
      assert i == 6 || i == 7 || i == 8;
    } else {
      assert i == 9 || i == 10 || i == 11;
    }
  }

  /** Distinct months get distinct numbers. */
  lemma MonthNumberInjective(i: nat, j: nat)
    requires i < j < |MonthNames|
    ensures MonthNumber(MonthNames[i]) != MonthNumber(MonthNames[j])
  {
    MonthNumberCalendarOrder(i);
    MonthNumberCalendarOrder(j);
    var ri := TwoDigits(i + 1);
    var rj := TwoDigits(j + 1);
    assert ((ri[0] as int) - ('0' as int)) * 10 + ((ri[1] as int) - ('0' as int)) == i + 1;
    assert ((rj[0] as int) - ('0' as int)) * 10 + ((rj[1] as int) - ('0' as int)) == j + 1;
  }

  /** A JavaScript value as far as the lookup can produce one. */
  datatype JsValue = Undefined | JsString(s: string) | JsObject(name: string)

  /** Properties every object literal inherits from `Object.prototype`. */
  const InheritedNames: set<string> := {
    "constructor", "__proto__", "toString", "toLocaleString", "valueOf",
    "hasOwnProperty", "isPrototypeOf", "propertyIsEnumerable",
    "__defineGetter__", "__defineSetter__", "__lookupGetter__", "__lookupSetter__"}

  predicate Truthy(v: JsValue) {
    match v
    case Undefined => false
    case JsString(s) => s != ""
    case JsObject(_) => true
  }

  /** `months[monthName] || ""` as written: a property read that also finds
      inherited members (functions and `Object.prototype` itself). */
  function MonthReplacerAsWritten(name: string): (v: JsValue)
    ensures name !in InheritedNames ==> v == JsString(MonthNumber(name))
    ensures name in InheritedNames ==> v.JsObject?
  {
    var found :=
      if name in MonthTable then JsString(MonthTable[name])
      else if name in InheritedNames then JsObject(name)
      else Undefined;
    if Truthy(found) then found else JsString("")
  }

  /** The counterexample: the name "toString" is no month, yet the lookup
      returns a function rather than "". */
  lemma InheritedNameIsNotEmpty()
    ensures "toString" !in MonthNames
    ensures MonthReplacerAsWritten("toString") != JsString("")
    ensures !MonthReplacerAsWritten("toString").JsString?
  {
  }
}

=== FILE: news_post.dfy ===
/**
 * The `News` model: the document store the pipeline writes to, as an
 * append-only sequence of records, and the read handlers with their status
 * codes. Query matching (the regular expression of the search) and storage
 * failures are given as inputs.
 */
module NewsPost {
  import opened Wrappers
  import opened ArticleExtractor

  /** A stored document. `id` stands for the ObjectId the store assigns. */
  datatype NewsRecord = NewsRecord(
    id: nat,
    categoryId: string,
    categoryName: string,
    title: string,
    image: string,
    date: string,
    content: Option<string>)

  /** Records in creation order. */
  type Store = seq<NewsRecord>

  /** Ids are positions: records are only ever appended. */
  predicate WellFormed(store: Store) {
    forall i :: 0 <= i < |store| ==> store[i].id == i
  }

  /** The schema's `required` paths: Mongoose rejects a missing value and the
      empty string alike for a required String. */
  predicate PassesValidation(data: Article, categoryId: string) {
    categoryId != "" && data.title != "" && data.date != ""
  }

  /** The store after a save, and what `saveNews` resolves to (`None` for `undefined`). */
  datatype Saved = Saved(store: Store, result: Option<NewsRecord>)

  /** `saveNews(data, categoryId, categoryName = "")`: `create` with the
      category fields set from the arguments. `fails` is a storage failure;
      a failed save is logged and swallowed, leaving the store unchanged. */
  function SaveNews(store: Store, data: Article, categoryId: string, categoryName: Option<string>, fails: bool): (r: Saved)
    ensures r.result.Some? <==> !fails && PassesValidation(data, categoryId)
    ensures r.result.None? ==> r.store == store
    ensures r.result.Some? ==>
      var rec := r.result.value;
      && r.store == store + [rec]
      && rec.id == |store|
      && rec.categoryId == categoryId
      && rec.categoryName == categoryName.GetOr("")
      && rec.title == data.title && rec.date == data.date
      && rec.image == data.image && rec.content == data.content
    ensures WellFormed(store) ==> WellFormed(r.store)
  {
    if fails || !PassesValidation(data, categoryId) then Saved(store, None)
    else
      var rec := NewsRecord(|store|, categoryId, categoryName.GetOr(""), data.title, data.image, data.date, data.content);
      Saved(store + [rec], Some(rec))
  }

  /** The first record satisfying `matches`, if any. */
  function FindFirst(store: Store, matches: NewsRecord -> bool): (r: Option<NewsRecord>)
    ensures r.Some? <==> exists i :: 0 <= i < |store| && matches(store[i])
    ensures r.Some? ==> r.value in store && matches(r.value)
  {
    if |store| == 0 then None
    else if matches(store[0]) then Some(store[0])
    else
      var r := FindFirst(store[1..], matches);
      assert forall i :: 1 <= i < |store| ==> store[1..][i - 1] == store[i];
      r
  }

  /** `findNewsByTitle`: a record comes back exactly when one has that title. */
  function FindNewsByTitle(store: Store, title: string): (r: Option<NewsRecord>)
    ensures r.Some? <==> exists i :: 0 <= i < |store| && store[i].title == title
    ensures r.Some? ==> r.value in store && r.value.title == title
  {
    FindFirst(store, (rec: NewsRecord) => rec.title == title)
  }

  /** The records satisfying `keep`, in their order. */
  function Filter(xs: seq<NewsRecord>, keep: NewsRecord -> bool): (r: seq<NewsRecord>)
    ensures |r| == MatchCount(xs, keep) <= |xs|
    ensures forall k :: 0 <= k < |r| ==> keep(r[k]) && r[k] in xs
    ensures forall i :: 0 <= i < |xs| && keep(xs[i]) ==> xs[i] in r
  {
    if |xs| == 0 then []
    else
      var rest := Filter(xs[1..], keep);
      assert forall i :: 1 <= i < |xs| ==> xs[1..][i - 1] == xs[i];
      if keep(xs[0]) then [xs[0]] + rest else rest
  }

  /** Records in strictly decreasing id order: newest first, when ids are
      creation positions. */
  predicate IdsDescending(xs: seq<NewsRecord>) {
    forall k1, k2 :: 0 <= k1 < k2 < |xs| ==> xs[k1].id > xs[k2].id
  }

  /** Filtering records that all have ids below a bound keeps them below it. */
  lemma FilterIdsBelow(xs: seq<NewsRecord>, keep: NewsRecord -> bool, bound: int)
    requires forall i :: 0 <= i < |xs| ==> xs[i].id < bound
    ensures forall k :: 0 <= k < |Filter(xs, keep)| ==> Filter(xs, keep)[k].id < bound
  {
    var r := Filter(xs, keep);
    forall k | 0 <= k < |r| ensures r[k].id < bound {
      assert r[k] in xs;
    }
  }

  /** Dropping the newest record keeps the order, and the rest are older. */
  lemma TailDescending(xs: seq<NewsRecord>)
    requires |xs| > 0 && IdsDescending(xs)
    ensures IdsDescending(xs[1..])
    ensures forall i :: 0 <= i < |xs[1..]| ==> xs[1..][i].id < xs[0].id
  {
    forall k1, k2 | 0 <= k1 < k2 < |xs[1..]| ensures xs[1..][k1].id > xs[1..][k2].id {
      assert xs[1..][k1] == xs[k1 + 1] && xs[1..][k2] == xs[k2 + 1];
    }
    forall i | 0 <= i < |xs[1..]| ensures xs[1..][i].id < xs[0].id {
      assert xs[1..][i] == xs[i + 1];
    }
  }

  /** A record newer than all of a descending sequence can go in front. */
  lemma ConsDescending(x: NewsRecord, rest: seq<NewsRecord>)
    requires IdsDescending(rest)
    requires forall k :: 0 <= k < |rest| ==> rest[k].id < x.id
    ensures IdsDescending([x] + rest)
  {
    var r := [x] + rest;
    forall k1, k2 | 0 <= k1 < k2 < |r| ensures r[k1].id > r[k2].id {
      assert r[k2] == rest[k2 - 1];
      if k1 > 0 {
        assert r[k1] == rest[k1 - 1];
      }
    }
  }

  /** Filtering keeps the relative order of the survivors. */
  lemma {:induction false} FilterKeepsIdOrder(xs: seq<NewsRecord>, keep: NewsRecord -> bool)
    requires IdsDescending(xs)
    ensures IdsDescending(Filter(xs, keep))
  {
    if |xs| > 0 {
      TailDescending(xs);
      FilterKeepsIdOrder(xs[1..], keep);
      if keep(xs[0]) {
        FilterIdsBelow(xs[1..], keep, xs[0].id);
        ConsDescending(xs[0], Filter(xs[1..], keep));
      }
    }
  }

  /** How many records satisfy `keep`. */
  function MatchCount(xs: seq<NewsRecord>, keep: NewsRecord -> bool): nat {
    if |xs| == 0 then 0 else (if keep(xs[0]) then 1 else 0) + MatchCount(xs[1..], keep)
  }

  lemma {:induction false} MatchCountSnoc(xs: seq<NewsRecord>, x: NewsRecord, keep: NewsRecord -> bool)
    ensures MatchCount(xs + [x], keep) == MatchCount(xs, keep) + (if keep(x) then 1 else 0)
  {
    if |xs| > 0 {
      assert (xs + [x])[1..] == xs[1..] + [x];
      MatchCountSnoc(xs[1..], x, keep);
    } else {
      assert (xs + [x])[1..] == [];
    }
  }

  /** Ordering by recency neither adds nor loses matches. */
  lemma {:induction false} NewestFirstMatchCount(store: Store, keep: NewsRecord -> bool)
    ensures MatchCount(NewestFirst(store), keep) == MatchCount(store, keep)
  {
    if |store| > 0 {
      var n := |store| - 1;
      NewestFirstMatchCount(store[..n], keep);
      assert NewestFirst(store)[1..] == NewestFirst(store[..n]);
      MatchCountSnoc(store[..n], store[n], keep);
      assert store[..n] + [store[n]] == store;
    }
  }

  /** `sort({ createdAt: -1 })`: newest first. */
  function NewestFirst(store: Store): (r: seq<NewsRecord>)
    ensures |r| == |store|
    ensures forall i :: 0 <= i < |store| ==> r[i] == store[|store| - 1 - i]
  {
    if |store| == 0 then [] else [store[|store| - 1]] + NewestFirst(store[..|store| - 1])
  }

  /** With ids as creation positions, newest first is decreasing id order. */
  lemma NewestFirstDescending(store: Store)
    requires WellFormed(store)
    ensures IdsDescending(NewestFirst(store))
  {
    var nf := NewestFirst(store);
    forall i, j | 0 <= i < j < |nf| ensures nf[i].id > nf[j].id {
      assert nf[i] == store[|store| - 1 - i] && nf[j] == store[|store| - 1 - j];
    }
  }

  /** Newest-first order invents no record. */
  lemma NewestFirstMembers(store: Store)
    ensures forall x :: x in NewestFirst(store) ==> x in store
  {
    forall x | x in NewestFirst(store) ensures x in store {
      var j :| 0 <= j < |store| && NewestFirst(store)[j] == x;
      assert store[|store| - 1 - j] == x;
    }
  }

  /** Response bodies; messages are left out. */
  datatype Body =
    | Message
    | AllPosts(postLength: nat, allPosts: seq<NewsRecord>)
    | OneItem(newsItem: NewsRecord)
    | ManyItems(newsItems: seq<NewsRecord>)
    | SearchResults(resultsCount: nat, newsItems: seq<NewsRecord>)

  datatype Response = Response(status: nat, body: Body)

  /** `getAllPost`: 404 on an empty store, otherwise 200 with every record;
      `dbError` is a failed query. */
  function GetAllPost(store: Store, dbError: bool): (r: Response)
    ensures r.status == 500 <==> dbError
    ensures r.status == 404 <==> !dbError && |store| == 0
    ensures r.status == 200 <==> !dbError && |store| > 0
    ensures r.status == 200 ==>
      r.body.AllPosts? && r.body.postLength == |store| && multiset(r.body.allPosts) == multiset(store)
    ensures r.status == 200 && WellFormed(store) ==> IdsDescending(r.body.allPosts)
  {
    if dbError then Response(500, Message)
    else
      var allPosts := NewestFirst(store);
      if |allPosts| == 0 then Response(404, Message)
      else
        assert multiset(allPosts) == multiset(store) by { NewestFirstPermutes(store); }
        assert WellFormed(store) ==> IdsDescending(allPosts) by {
          if WellFormed(store) {
            NewestFirstDescending(store);
          }
        }
        Response(200, AllPosts(|allPosts|, allPosts))
  }

  /** Newest-first order holds the same records. */
  lemma {:induction false} NewestFirstPermutes(store: Store)
    ensures multiset(NewestFirst(store)) == multiset(store)
  {
    if |store| > 0 {
      var n := |store| - 1;
      NewestFirstPermutes(store[..n]);
      assert store == store[..n] + [store[n]];
    }
  }

  /** The `Id` route parameter: an ObjectId, or a string `findById` cannot cast. */
  datatype IdParam = ValidId(n: nat) | MalformedId

  /** `getNewsById`: 404 when no record has the id, 200 with that record; a
      failed query, including the cast of a malformed id, answers 500. */
  function GetNewsById(store: Store, id: IdParam, dbError: bool): (r: Response)
    ensures r.status == 500 <==> dbError || id.MalformedId?
    ensures r.status == 404 <==>
      !dbError && id.ValidId? && !exists i :: 0 <= i < |store| && store[i].id == id.n
    ensures r.status == 200 <==>
      !dbError && id.ValidId? && exists i :: 0 <= i < |store| && store[i].id == id.n
    ensures r.status == 200 ==>
      r.body.OneItem? && r.body.newsItem in store && r.body.newsItem.id == id.n
  {
    if dbError || id.MalformedId? then Response(500, Message)
    else match FindFirst(store, (rec: NewsRecord) => rec.id == id.n)
      case None => Response(404, Message)
      case Some(item) => Response(200, OneItem(item))
  }

  /** `getNewsByCategoryName`: 404 when no record has that `categoryName`,
      otherwise 200 with exactly those records, newest first. */
  function GetNewsByCategoryName(store: Store, name: string, dbError: bool): (r: Response)
    ensures r.status == 500 <==> dbError
    ensures r.status == 404 <==>
      !dbError && !exists i :: 0 <= i < |store| && store[i].categoryName == name
    ensures r.status == 200 <==>
      !dbError && exists i :: 0 <= i < |store| && store[i].categoryName == name
    ensures r.status == 200 ==>
      && r.body.ManyItems?
      && (forall k :: 0 <= k < |r.body.newsItems| ==>
            r.body.newsItems[k].categoryName == name && r.body.newsItems[k] in store)
      && (forall i :: 0 <= i < |store| && store[i].categoryName == name ==> store[i] in r.body.newsItems)
    ensures r.status == 200 && WellFormed(store) ==> IdsDescending(r.body.newsItems)
  {
    if dbError then Response(500, Message)
    else
      var items := Filter(NewestFirst(store), (rec: NewsRecord) => rec.categoryName == name);
      assert forall i :: 0 <= i < |store| ==> store[i] == NewestFirst(store)[|store| - 1 - i];
      if |items| == 0 then Response(404, Message)
      else
        NewestFirstMembers(store);
        assert items[0] in store && items[0].categoryName == name;
        assert WellFormed(store) ==> IdsDescending(items) by {
          if WellFormed(store) {
            NewestFirstDescending(store);
            FilterKeepsIdOrder(NewestFirst(store), (rec: NewsRecord) => rec.categoryName == name);
          }
        }
        Response(200, ManyItems(items))
  }

  /** Most results one search returns. */
  const SearchLimit: nat := 5

  function Min(a: nat, b: nat): nat {
    if a <= b then a else b
  }

  /** The newest `SearchLimit` records satisfying `matches`, newest first:
      `find(...).sort({ createdAt: -1 }).limit(5)`. */
  function NewestMatches(store: Store, matches: NewsRecord -> bool): (r: seq<NewsRecord>)
    ensures |r| == Min(SearchLimit, MatchCount(store, matches))
    ensures |r| <= |Filter(NewestFirst(store), matches)| && r == Filter(NewestFirst(store), matches)[..|r|]
    ensures forall k :: 0 <= k < |r| ==> matches(r[k]) && r[k] in store
    ensures |r| == 0 <==> !exists i :: 0 <= i < |store| && matches(store[i])
  {
    var hits := Filter(NewestFirst(store), matches);
    NewestFirstMatchCount(store, matches);
    NewestFirstMembers(store);
    assert forall i :: 0 <= i < |store| ==> store[i] == NewestFirst(store)[|store| - 1 - i];
    assert |hits| > 0 ==> exists i :: 0 <= i < |store| && matches(store[i]) by {
      if |hits| > 0 {
        var i :| 0 <= i < |store| && store[i] == hits[0];
        assert matches(store[i]);
      }
    }
    if |hits| <= SearchLimit then hits else hits[..SearchLimit]
  }

  /** Every match that `items` leaves out is older than each one it holds. */
  predicate LeftOutAreOlder(store: Store, matches: NewsRecord -> bool, items: seq<NewsRecord>) {
    forall k, i :: 0 <= k < |items| && 0 <= i < |store| && matches(store[i]) && store[i] !in items ==>
      store[i].id < items[k].id
  }

  /** With ids as creation positions, the search answer is the newest of the
      matches: newest first, and every match left out is older than every
      match returned. */
  lemma NewestMatchesAreNewest(store: Store, matches: NewsRecord -> bool)
    requires WellFormed(store)
    ensures IdsDescending(NewestMatches(store, matches))
    ensures LeftOutAreOlder(store, matches, NewestMatches(store, matches))
  {
    var nf := NewestFirst(store);
    var hits := Filter(nf, matches);
    var r := NewestMatches(store, matches);
    NewestFirstDescending(store);
    FilterKeepsIdOrder(nf, matches);
    assert r == hits[..|r|];
    forall k1, k2 | 0 <= k1 < k2 < |r| ensures r[k1].id > r[k2].id {
      assert r[k1] == hits[k1] && r[k2] == hits[k2];
    }
    forall k, i | 0 <= k < |r| && 0 <= i < |store| && matches(store[i]) && store[i] !in r
      ensures store[i].id < r[k].id
    {
      assert store[i] == nf[|store| - 1 - i];
      assert store[i] in hits;
      var j :| 0 <= j < |hits| && hits[j] == store[i];
      assert r[k] == hits[k];
    }
  }

  /** `searchNews`: 400 without a non-empty `q`, before any query; a pattern
      the regular-expression constructor rejects, or a failed query, answers
      500; otherwise the newest matches, at most five: 404 when there are
      none, 200 with their count. `matches` is the case-insensitive pattern
      test on title or content. */
  function SearchNews(store: Store, q: Option<string>, validPattern: bool,
                      matches: NewsRecord -> bool, dbError: bool): (r: Response)
    ensures r.status == 400 <==> q.None? || q.value == ""
    ensures r.status == 500 <==> q.Some? && q.value != "" && (!validPattern || dbError)
    ensures r.status == 404 <==>
      q.Some? && q.value != "" && validPattern && !dbError &&
      !exists i :: 0 <= i < |store| && matches(store[i])
    ensures r.status == 200 <==>
      q.Some? && q.value != "" && validPattern && !dbError &&
      exists i :: 0 <= i < |store| && matches(store[i])
    ensures r.status == 200 ==>
      && r.body.SearchResults?
      && 1 <= r.body.resultsCount <= SearchLimit
      && r.body.resultsCount == |r.body.newsItems|
      && r.body.resultsCount == Min(SearchLimit, MatchCount(store, matches))
      && r.body.resultsCount <= |Filter(NewestFirst(store), matches)|
      && r.body.newsItems == Filter(NewestFirst(store), matches)[..r.body.resultsCount]
      && forall k :: 0 <= k < |r.body.newsItems| ==>
           matches(r.body.newsItems[k]) && r.body.newsItems[k] in store
    ensures r.status == 200 && WellFormed(store) ==>
      IdsDescending(r.body.newsItems) && LeftOutAreOlder(store, matches, r.body.newsItems)
  {
    if q.None? || q.value == "" then Response(400, Message)
    else if !validPattern || dbError then Response(500, Message)
    else
      var newsItems := NewestMatches(store, matches);
      assert WellFormed(store) ==>
        IdsDescending(newsItems) && LeftOutAreOlder(store, matches, newsItems) by {
        if WellFormed(store) {
          NewestMatchesAreNewest(store, matches);
        }
      }
      if |newsItems| == 0 then Response(404, Message)
      else Response(200, SearchResults(|newsItems|, newsItems))
  }
}

=== FILE: punch.dfy ===
/**
 * `pageScrapper`: scraping one category. The browser is replaced by given
 * outcomes: whether the launch worked, how the listing page fared, and for
 * every article link what opening, loading and extracting it gave. The
 * observable effects are the returned posts and the sequence of page, delay
 * and browser events, from which the cleanup guarantees are read off.
 */
module Punch {
  import opened Wrappers
  import opened Dedup
  import opened LinkExtractor
  import opened ArticleExtractor

  /** `page.goto` timeout for the listing and for every article. */
  const NavigationTimeoutMs: nat := 60000
  /** Pause after every visited article. */
  const PostDelayMs: nat := 1500

  /** The listing page: navigation failed, link extraction threw, or it loaded
      with the given `#category-page` container. */
  datatype Listing = ListingNavigationFailed | LinkExtractionFailed | ListingLoaded(container: Container)

  /** One article link: `browser.newPage()` rejected, `goto` failed (timeout,
      network), `page.evaluate` threw, or the page loaded with the given
      `.single-article` element (`None` when absent). */
  datatype LinkOutcome = NewPageFailed | NavigationFailed | ExtractionFailed | Loaded(root: Option<ArticleRoot>)

  /** What the scraper does to the browser, in order. */
  datatype Event = PageOpened(link: string) | PageClosed(link: string) | Delayed(ms: nat) | BrowserClosed

  /** The promise returned by `pageScrapper`: rejected because the browser did
      not launch, rejected because request interception on the listing page
      failed (before the `try`, so the browser is left open), rejected because
      `browser.close()` in the final `finally` failed (its rejection replaces
      whatever the `try` returned), or resolved with posts; `events` records
      the page and browser handling of a resolved run. */
  datatype Scrape =
    | LaunchFailed
    | InterceptFailed
    | BrowserCloseFailed
    | Scraped(posts: seq<Article>, events: seq<Event>)
  {
    /** The promise rejects: no posts reach the caller. */
    predicate Rejected() {
      !Scraped?
    }
  }

  /** `mainContent?.title && mainContent?.content`. */
  predicate Keep(a: Option<Article>) {
    a.Some? && a.value.title != "" && a.value.content.Some? && a.value.content.value != ""
  }

  /** The events of one visited link: open, close in `finally`, then the delay. */
  function Visit(link: string): seq<Event> {
    [PageOpened(link), PageClosed(link), Delayed(PostDelayMs)]
  }

  /** The state of the `for` loop: posts kept, events so far, and whether an
      exception escaped to the outer `catch`. */
  datatype Progress = Progress(posts: seq<Article>, events: seq<Event>, aborted: bool)

  /** One iteration of the loop over links. */
  function Step(p: Progress, link: string, open: string -> LinkOutcome): Progress {
    if p.aborted || link == "" then p
    else match open(link)
      case NewPageFailed => p.(aborted := true)
      case NavigationFailed => p.(events := p.events + Visit(link))
      case ExtractionFailed => p.(events := p.events + Visit(link))
      case Loaded(root) =>
        var a := ExtractArticle(root);
        Progress(if Keep(a) then p.posts + [a.value] else p.posts, p.events + Visit(link), false)
  }

  /** The loop over all links. */
  function Walk(links: seq<string>, open: string -> LinkOutcome): Progress {
    if |links| == 0 then Progress([], [], false)
    else Step(Walk(links[..|links| - 1], open), links[|links| - 1], open)
  }

  /** One more link, spelled out for a run without an abort so far. */
  lemma WalkSnoc(links: seq<string>, i: nat, open: string -> LinkOutcome)
    requires i < |links| && !Walk(links[..i], open).aborted
    ensures var p := Walk(links[..i], open);
      var link := links[i];
      Walk(links[..i + 1], open) ==
        if link == "" then p
        else if open(link).NewPageFailed? then p.(aborted := true)
        else Progress(p.posts + Contribution(link, open), p.events + Visit(link), false)
  {
    assert links[..i + 1][..i] == links[..i];
  }

  /** Once an exception has escaped the loop, later links change nothing. */
  lemma {:induction false} WalkAbortedSticky(links: seq<string>, k: nat, open: string -> LinkOutcome)
    requires k <= |links| && Walk(links[..k], open).aborted
    ensures Walk(links, open) == Walk(links[..k], open)
  {
    if k < |links| {
      var n := |links| - 1;
      assert links[..n][..k] == links[..k];
      WalkAbortedSticky(links[..n], k, open);
    } else {
      assert links[..k] == links;
    }
  }

  /** What a link contributes when visited: the extracted article, if kept. */
  function Contribution(link: string, open: string -> LinkOutcome): seq<Article> {
    if link != "" && open(link).Loaded? && Keep(ExtractArticle(open(link).root))
    then [ExtractArticle(open(link).root).value]
    else []
  }

  /** Reference result when no exception escapes: every link's contribution,
      in listing order. Every post in it has a title and a non-empty body. */
  function KeptAll(links: seq<string>, open: string -> LinkOutcome): (r: seq<Article>)
    ensures forall k :: 0 <= k < |r| ==>
      r[k].title != "" && r[k].content.Some? && r[k].content.value != ""
  {
    if |links| == 0 then []
    else KeptAll(links[..|links| - 1], open) + Contribution(links[|links| - 1], open)
  }

  /** Some visited link's `newPage` rejects: the exception that reaches the outer `catch`. */
  predicate Escapes(links: seq<string>, open: string -> LinkOutcome) {
    exists i :: 0 <= i < |links| && links[i] != "" && open(links[i]).NewPageFailed?
  }

  /** The loop aborts exactly when some visited link's page cannot be opened. */
  lemma {:induction false} WalkAbortsIff(links: seq<string>, open: string -> LinkOutcome)
    ensures Walk(links, open).aborted <==> Escapes(links, open)
  {
    if |links| > 0 {
      var n := |links| - 1;
      var init := links[..n];
      WalkAbortsIff(init, open);
      if Escapes(init, open) {
        var i :| 0 <= i < n && init[i] != "" && open(init[i]).NewPageFailed?;
        assert links[i] == init[i];
      }
    }
  }

  /** Without an abort the loop yields the reference result. */
  lemma {:induction false} WalkPostsMatch(links: seq<string>, open: string -> LinkOutcome)
    ensures !Walk(links, open).aborted ==> Walk(links, open).posts == KeptAll(links, open)
  {
    if |links| > 0 {
      var n := |links| - 1;
      WalkPostsMatch(links[..n], open);
    }
  }

  /** The reference result of a concatenation is the concatenation of results:
      what one link yields does not depend on the links around it. */
  lemma {:induction false} KeptAllAppend(a: seq<string>, b: seq<string>, open: string -> LinkOutcome)
    ensures KeptAll(a + b, open) == KeptAll(a, open) + KeptAll(b, open)
  {
    if |b| > 0 {
      var n := |b| - 1;
      assert (a + b)[..|a + b| - 1] == a + b[..n];
      KeptAllAppend(a, b[..n], open);
    } else {
      assert a + b == a;
    }
  }

  /** Failure isolation: a link whose navigation or extraction fails
      contributes nothing, and the posts of the links after it are kept as if
      it were absent. */
  lemma FailureIsolated(a: seq<string>, link: string, b: seq<string>, open: string -> LinkOutcome)
    requires open(link).NavigationFailed? || open(link).ExtractionFailed?
    ensures KeptAll(a + [link] + b, open) == KeptAll(a, open) + KeptAll(b, open)
  {
    assert Contribution(link, open) == [];
    assert [link][..0] == [];
    assert KeptAll([link], open) == [];
    KeptAllAppend(a + [link], b, open);
    KeptAllAppend(a, [link], open);
  }

  /** Nor does such a link cause or hide an abort. */
  lemma FailureDoesNotAbort(a: seq<string>, link: string, b: seq<string>, open: string -> LinkOutcome)
    requires open(link).NavigationFailed? || open(link).ExtractionFailed?
    ensures Escapes(a + [link] + b, open) <==> Escapes(a + b, open)
  {
    var whole := a + [link] + b;
    if Escapes(whole, open) {
      var i :| 0 <= i < |whole| && whole[i] != "" && open(whole[i]).NewPageFailed?;
      if i < |a| {
        assert (a + b)[i] == whole[i];
      } else {
        assert (a + b)[i - 1] == whole[i];
      }
    }
    if Escapes(a + b, open) {
      var i :| 0 <= i < |a + b| && (a + b)[i] != "" && open((a + b)[i]).NewPageFailed?;
      if i < |a| {
        assert whole[i] == (a + b)[i];
      } else {
        assert whole[i + 1] == (a + b)[i];
      }
    }
  }

  /** Every kept post was extracted from a visited link of the listing. */
  lemma {:induction false} KeptAllProvenance(links: seq<string>, open: string -> LinkOutcome, k: nat)
    returns (i: nat)
    requires k < |KeptAll(links, open)|
    ensures i < |links| && links[i] != "" && open(links[i]).Loaded?
    ensures ExtractArticle(open(links[i]).root) == Some(KeptAll(links, open)[k])
  {
    var n := |links| - 1;
    if k < |KeptAll(links[..n], open)| {
      i := KeptAllProvenance(links[..n], open, k);
      assert links[..n][i] == links[i];
    } else {
      i := n;
    }
  }

  /** Per visited link the browser sees open, close, delay; nothing else. */
  predicate Bracketed(ev: seq<Event>)
    decreases |ev|
  {
    || |ev| == 0
    || (&& |ev| >= 3
        && ev[0].PageOpened? && ev[0].link != ""
        && ev[1] == PageClosed(ev[0].link)
        && ev[2] == Delayed(PostDelayMs)
        && Bracketed(ev[3..]))
  }

  lemma {:induction false} BracketedAppend(a: seq<Event>, link: string)
    requires Bracketed(a) && link != ""
    ensures Bracketed(a + Visit(link))
    decreases |a|
  {
    if |a| == 0 {
      assert Visit(link)[3..] == [];
    } else {
      assert (a + Visit(link))[3..] == a[3..] + Visit(link);
      BracketedAppend(a[3..], link);
    }
  }

  /** The loop's events are well bracketed. */
  lemma {:induction false} WalkBracketed(links: seq<string>, open: string -> LinkOutcome)
    ensures Bracketed(Walk(links, open).events)
  {
    if |links| > 0 {
      var n := |links| - 1;
      WalkBracketed(links[..n], open);
      var p := Walk(links[..n], open);
      if !p.aborted && links[n] != "" && !open(links[n]).NewPageFailed? {
        BracketedAppend(p.events, links[n]);
      }
    }
  }

  /** In a bracketed trace every page opened is closed exactly as often as it
      was opened, there is one delay per opened page, and the browser is not
      closed. */
  lemma {:induction false} BracketedCounts(ev: seq<Event>)
    requires Bracketed(ev)
    ensures forall u :: multiset(ev)[PageOpened(u)] == multiset(ev)[PageClosed(u)]
    ensures 3 * multiset(ev)[Delayed(PostDelayMs)] == |ev|
    ensures BrowserClosed !in ev
    decreases |ev|
  {
    if |ev| > 0 {
      BracketedCounts(ev[3..]);
      assert ev == ev[..3] + ev[3..];
      assert multiset(ev) == multiset(ev[..3]) + multiset(ev[3..]);
      assert ev[..3] == [ev[0], ev[1], ev[2]];
    }
  }

  /** Number of links with a non-empty `link`. */
  function CountVisitable(links: seq<string>): nat {
    if |links| == 0 then 0
    else CountVisitable(links[..|links| - 1]) + (if links[|links| - 1] != "" then 1 else 0)
  }

  /** Without an escaping exception every non-empty link is visited: three
      events each, so exactly one delay per visited link. */
  lemma {:induction false} WalkVisitsAll(links: seq<string>, open: string -> LinkOutcome)
    requires !Walk(links, open).aborted
    ensures |Walk(links, open).events| == 3 * CountVisitable(links)
  {
    if |links| > 0 {
      var n := |links| - 1;
      WalkVisitsAll(links[..n], open);
    }
  }

  /** Pages are opened only for non-empty links of the listing. */
  lemma {:induction false} OpenedFromListing(links: seq<string>, open: string -> LinkOutcome)
    ensures forall u :: PageOpened(u) in Walk(links, open).events ==> u != "" && u in links
  {
    if |links| > 0 {
      var n := |links| - 1;
      OpenedFromListing(links[..n], open);
      assert links[..n] <= links;
    }
  }

  /** With the de-duplicated listing no article page is opened twice. */
  lemma {:induction false} OpenedAtMostOnce(links: seq<string>, open: string -> LinkOutcome)
    requires NoDuplicates(links)
    ensures forall u :: multiset(Walk(links, open).events)[PageOpened(u)] <= 1
  {
    if |links| > 0 {
      var n := |links| - 1;
      var init := links[..n];
      assert NoDuplicates(init);
      OpenedAtMostOnce(init, open);
      OpenedFromListing(init, open);
      var ev := Walk(init, open).events;
      assert links[n] !in init;
      assert PageOpened(links[n]) !in ev;
      forall u ensures multiset(Walk(links, open).events)[PageOpened(u)] <= 1 {
        var p := Walk(init, open);
        if !p.aborted && links[n] != "" && !open(links[n]).NewPageFailed? {
          assert Walk(links, open).events == ev + Visit(links[n]);
          assert multiset(ev + Visit(links[n])) == multiset(ev) + multiset(Visit(links[n]));
        }
      }
    }
  }

  /** Cleanup over a whole category run: each article page opened is closed
      exactly once, at most one page per link, one delay per opened page, and
      the browser is closed once, at the end. */
  lemma CategoryCleanup(siteUrl: string, container: Container, open: string -> LinkOutcome)
    ensures var w := Walk(UniqueLinks(siteUrl, container), open);
      var ev := w.events + [BrowserClosed];
      && (forall u :: multiset(ev)[PageOpened(u)] == multiset(ev)[PageClosed(u)] <= 1)
      && 3 * multiset(ev)[Delayed(PostDelayMs)] == |w.events|
      && multiset(ev)[BrowserClosed] == 1
  {
    var links := UniqueLinks(siteUrl, container);
    UniqueLinksSpec(siteUrl, container);
    var w := Walk(links, open);
    WalkBracketed(links, open);
    BracketedCounts(w.events);
    OpenedAtMostOnce(links, open);
    var ev := w.events + [BrowserClosed];
    assert multiset(ev) == multiset(w.events) + multiset{BrowserClosed};
  }

  /** The body of the `for` loop for one non-empty link: `newPage` outside the
      inner `try`, then navigation and extraction inside it, then the page
      closed and the delay taken in `finally`. */
  method VisitLink(postData: seq<Article>, events: seq<Event>, link: string, open: string -> LinkOutcome)
    returns (posts: seq<Article>, trace: seq<Event>, thrown: bool)
    requires link != ""
    ensures thrown <==> open(link).NewPageFailed?
    ensures !thrown ==> posts == postData + Contribution(link, open) && trace == events + Visit(link)
  {
    var outcome := open(link);
    if outcome.NewPageFailed? {
      return postData, events, true;
    }
    posts, trace, thrown := postData, events + [PageOpened(link)], false;
    if outcome.Loaded? {
      var mainContent := ExtractArticle(outcome.root);
      if Keep(mainContent) {
        posts := posts + [mainContent.value];
      }
    }
    trace := trace + [PageClosed(link), Delayed(PostDelayMs)];
  }

  /** The `for` loop as written: links with an empty `link` are skipped; a
      rejected `newPage` leaves the loop with the exception; any other failure
      is caught, and the page is closed and the delay taken whatever happened. */
  method VisitLinks(links: seq<string>, open: string -> LinkOutcome)
    returns (postData: seq<Article>, events: seq<Event>, failed: bool)
    ensures Progress(postData, events, failed) == Walk(links, open)
    ensures BrowserClosed !in events
  {
    postData := [];
    events := [];
    failed := false;
    var i := 0;
    while i < |links|
      invariant i <= |links|
      invariant Walk(links[..i], open) == Progress(postData, events, false)
      invariant BrowserClosed !in events
    {
      var link := links[i];
      WalkSnoc(links, i, open);
      if link != "" {
        var visited, traced, thrown := VisitLink(postData, events, link, open);
        if thrown {
          failed := true;
          WalkAbortedSticky(links, i + 1, open);
          return;
        }
        postData, events := visited, traced;
      }
      i := i + 1;
    }
    assert links[..i] == links;
  }

  /** The scraper as written. `intercepted` says whether request interception
      on the listing page resolved, `closes` whether the final `browser.close()`
      resolved. A failed listing yields no posts, so does an exception escaping
      the loop; in a resolved run the browser is closed exactly once, last. */
  method PageScrapper(launched: bool, intercepted: bool, siteUrl: string, listing: Listing,
                      open: string -> LinkOutcome, closes: bool)
    returns (r: Scrape)
    ensures !launched <==> r == LaunchFailed
    ensures launched && !intercepted <==> r == InterceptFailed
    ensures launched && intercepted && !closes <==> r == BrowserCloseFailed
    ensures r.Scraped? <==> launched && intercepted && closes
    ensures launched && intercepted && closes && !listing.ListingLoaded? ==> r == Scraped([], [BrowserClosed])
    ensures launched && intercepted && closes && listing.ListingLoaded? ==>
      var w := Walk(UniqueLinks(siteUrl, listing.container), open);
      r == Scraped(if w.aborted then [] else w.posts, w.events + [BrowserClosed])
    ensures r.Scraped? ==>
      |r.events| > 0 && r.events[|r.events| - 1] == BrowserClosed &&
      BrowserClosed !in r.events[..|r.events| - 1]
  {
    if !launched {
      // LaunchBrowser resolves to undefined; destructuring it throws before the try
      return LaunchFailed;
    }
    if !intercepted {
      // the rejection escapes before the try, so its finally never closes the browser
      return InterceptFailed;
    }
    var postData: seq<Article>, events: seq<Event>, failed := [], [], true;
    if listing.ListingLoaded? {
      var posts := ScraperAllPost(siteUrl, listing.container);
      postData, events, failed := VisitLinks(posts, open);
    }
    if !closes {
      // the finally's rejection replaces whatever the try returned
      return BrowserCloseFailed;
    }
    if failed {
      r := Scraped([], events + [BrowserClosed]);
    } else {
      r := Scraped(postData, events + [BrowserClosed]);
    }
    assert r.events[..|r.events| - 1] == events;
  }
}

=== FILE: resource_filter.dfy ===
/**
 * Request interception installed on every page (`interceptRequest`): inline
 * `data:` URLs and the byte-heavy resource kinds are aborted, everything else
 * (the document itself, XHR, fetch, ...) is let through.
 */
module ResourceFilter {

  datatype Decision = Abort | Continue

  /** An outgoing request: its URL and Puppeteer's resource type name
      ("document", "stylesheet", "image", "xhr", ...). */
  datatype Request = Request(url: string, resourceType: string)

  /** Resource kinds never fetched. */
  const BlockedTypes: set<string> := {"stylesheet", "font", "script", "image"}

  /** The decision taken in the request handler. */
  function Intercept(req: Request): (d: Decision)
    ensures d == Abort <==>
      || "data:" <= req.url
      || req.resourceType == "stylesheet"
      || req.resourceType == "font"
      || req.resourceType == "script"
      || req.resourceType == "image"
  {
    if "data:" <= req.url || req.resourceType in BlockedTypes then Abort else Continue
  }

  /** The requests of a page that actually go out, in issue order. */
  function Sent(reqs: seq<Request>): (out: seq<Request>)
    ensures |out| <= |reqs|
    ensures forall k :: 0 <= k < |out| ==>
      out[k] in reqs && !("data:" <= out[k].url) && out[k].resourceType !in BlockedTypes
    ensures forall i :: 0 <= i < |reqs| && Intercept(reqs[i]) == Continue ==> reqs[i] in out
  {
    if |reqs| == 0 then []
    else
      var rest := Sent(reqs[..|reqs| - 1]);
      var last := reqs[|reqs| - 1];
      assert forall i :: 0 <= i < |reqs| - 1 ==> reqs[i] == reqs[..|reqs| - 1][i];
      if Intercept(last) == Continue then rest + [last] else rest
  }

  /** The page's own HTML (a non-`data:` document request) is always fetched,
      so interception never prevents the text DOM from loading. */
  lemma DocumentAlwaysSent(reqs: seq<Request>, i: nat)
    requires i < |reqs|
    requires reqs[i].resourceType == "document" && !("data:" <= reqs[i].url)
    ensures reqs[i] in Sent(reqs)
  {
  }
}

=== FILE: text.dfy ===
/**
 * The string operations of ECMAScript the scraper relies on:
 * `String.prototype.trim`, `startsWith` and `Array.prototype.join`.
 * Strings are sequences of characters; `length` is the sequence length.
 */
module Text {

  /** WhiteSpace and LineTerminator code points of ECMAScript (sections 12.2
      and 12.3 of ECMA-262): exactly what `trim` removes. */
  predicate IsSpace(c: char) {
    c in SpaceChars || '\U{2000}' <= c <= '\U{200A}'
  }

  /** The white-space code points outside the range U+2000..U+200A. */
  const SpaceChars: set<char> := {
    '\t', '\n', '\U{B}', '\U{C}', '\r', ' ', '\U{A0}', '\U{1680}',
    '\U{2028}', '\U{2029}', '\U{202F}', '\U{205F}', '\U{3000}', '\U{FEFF}'}

  /** Nothing but white space. */
  predicate AllSpace(s: string) {
    forall i :: 0 <= i < |s| ==> IsSpace(s[i])
  }

  /** No white space at either end. */
  predicate IsTrimmed(s: string) {
    |s| == 0 || (!IsSpace(s[0]) && !IsSpace(s[|s| - 1]))
  }

  /** Length of the white-space run at the start of `s`. */
  function LeadingSpace(s: string): (n: nat)
    ensures n <= |s|
    ensures forall i :: 0 <= i < n ==> IsSpace(s[i])
    ensures n == |s| || !IsSpace(s[n])
  {
    if |s| > 0 && IsSpace(s[0]) then 1 + LeadingSpace(s[1..]) else 0
  }

  /** Length of the white-space run at the end of `s`. */
  function TrailingSpace(s: string): (n: nat)
    ensures n <= |s|
    ensures forall i :: |s| - n <= i < |s| ==> IsSpace(s[i])
    ensures n == |s| || !IsSpace(s[|s| - n - 1])
  {
    if |s| > 0 && IsSpace(s[|s| - 1]) then 1 + TrailingSpace(s[..|s| - 1]) else 0
  }

  /** `s.trim()`: `s` without its leading and trailing white space. */
  function Trim(s: string): string {
    var t := s[LeadingSpace(s)..];
    t[..|t| - TrailingSpace(t)]
  }

  /** `trim` cuts only at the ends: its result is the slice of `s` that
      starts after the leading white-space run. */
  lemma TrimIsSlice(s: string)
    ensures LeadingSpace(s) + |Trim(s)| <= |s|
    ensures Trim(s) == s[LeadingSpace(s)..LeadingSpace(s) + |Trim(s)|]
  {
    var lo := LeadingSpace(s);
    var t := s[lo..];
    var k := |t| - TrailingSpace(t);
    assert Trim(s) == t[..k];
    PrefixOfSuffix(s, lo, k);
  }

  lemma PrefixOfSuffix(s: string, lo: nat, k: nat)
    requires lo + k <= |s|
    ensures s[lo..][..k] == s[lo..lo + k]
  {
  }

  /** What `trim` cuts off is white space, and only white space: the parts
      of `s` before and after the trimmed slice. */
  lemma TrimCutsSpace(s: string)
    ensures LeadingSpace(s) + |Trim(s)| <= |s|
    ensures AllSpace(s[..LeadingSpace(s)])
    ensures AllSpace(s[LeadingSpace(s) + |Trim(s)|..])
  {
    var lo := LeadingSpace(s);
    var t := s[lo..];
    var k := |t| - TrailingSpace(t);
    assert |Trim(s)| == k;
    LeadingRunIsSpace(s);
    TrailingRunIsSpace(t);
    SuffixOfSuffix(s, lo, k);
  }

  lemma SuffixOfSuffix(s: string, lo: nat, k: nat)
    requires lo + k <= |s|
    ensures s[lo..][k..] == s[lo + k..]
  {
  }

  lemma LeadingRunIsSpace(s: string)
    ensures AllSpace(s[..LeadingSpace(s)])
  {
    var lo := LeadingSpace(s);
    forall i | 0 <= i < lo ensures IsSpace(s[..lo][i]) {
      assert s[..lo][i] == s[i];
    }
  }

  lemma TrailingRunIsSpace(t: string)
    ensures AllSpace(t[|t| - TrailingSpace(t)..])
  {
    var k := |t| - TrailingSpace(t);
    forall i | 0 <= i < |t| - k ensures IsSpace(t[k..][i]) {
      assert t[k..][i] == t[k + i];
    }
  }

  /** The result of `trim` has no white space at either end. */
  lemma TrimIsTrimmed(s: string)
    ensures IsTrimmed(Trim(s))
  {
    var lo := LeadingSpace(s);
    var t := s[lo..];
    var n := |t| - TrailingSpace(t);
    if n > 0 {
      assert Trim(s)[0] == t[0];
      assert Trim(s)[n - 1] == t[n - 1];
    }
  }

  /** Trimming cuts away only white space: a string already trimmed is its own trim. */
  lemma {:induction false} TrimOfTrimmed(s: string)
    requires IsTrimmed(s)
    ensures Trim(s) == s
  {
    if |s| > 0 {
      assert LeadingSpace(s) == 0;
      assert TrailingSpace(s) == 0;
    }
  }

  /** `trim` is idempotent. */
  lemma TrimIdempotent(s: string)
    ensures Trim(Trim(s)) == Trim(s)
  {
    TrimIsTrimmed(s);
    TrimOfTrimmed(Trim(s));
  }

  /** `parts.join(sep)`: the parts in order with `sep` between neighbours. */
  function Join(parts: seq<string>, sep: string): (r: string)
    ensures |parts| == 0 ==> r == ""
    ensures |parts| > 0 ==> parts[0] <= r
    ensures |parts| > 0 ==> |r| == TotalLength(parts) + (|parts| - 1) * |sep|
  {
    if |parts| == 0 then ""
    else if |parts| == 1 then parts[0]
    else parts[0] + sep + Join(parts[1..], sep)
  }

  /** Sum of the lengths of the parts. */
  function TotalLength(parts: seq<string>): nat {
    if |parts| == 0 then 0 else |parts[0]| + TotalLength(parts[1..])
  }

  /** Joining one more part appends the separator and that part. */
  lemma {:induction false} JoinSnoc(parts: seq<string>, sep: string, x: string)
    requires |parts| > 0
    ensures Join(parts + [x], sep) == Join(parts, sep) + sep + x
  {
    if |parts| == 1 {
      assert (parts + [x])[1..] == [x];
    } else {
      assert (parts + [x])[1..] == parts[1..] + [x];
      JoinSnoc(parts[1..], sep, x);
    }
  }

  /** Joining with a space gives the empty string exactly when there is nothing
      to join or only one empty part. */
  lemma JoinEmptyIff(parts: seq<string>)
    ensures Join(parts, " ") == "" <==> |parts| == 0 || (|parts| == 1 && parts[0] == "")
  {
    if |parts| > 1 {
      assert |Join(parts, " ")| >= |parts| - 1;
    }
  }
}

=== FILE: wrappers.dfy ===
/** JavaScript's `null`/`undefined` for a value that may be absent. */
module Wrappers {

  datatype Option<+T> = None | Some(value: T) {

    /** The value, or `default` when absent (the `x ?? default` idiom). */
    function GetOr(default: T): T {
      match this
      case Some(v) => v
      case None => default
    }
  }
}
